=== FILE: README.md ===
# AirspaceCommander in Dafny

A functional model of the simulation rules of AirspaceCommander, a WPF
missile-defence game. The player guards a row of buildings against falling
meteors, enemy rockets, UFOs and jets by launching rockets whose explosions
grow, damage what they touch and fade. Points buy research (faster engines,
bigger warheads, a nuclear warhead on a cooldown) and upkeep (shields,
renovation, modernisation).

The model follows the program's classes:

| module | file | models |
|---|---|---|
| `Common` | common.dfy | `Option`, absolute value, `Random.Next` ranges, `Math.Round` (banker's rounding) |
| `Geometry` | geometry.dfy | points, rectangles, squared distances |
| `Shields` | shields.dfy | `Shield`: the clamped hit-point setter and `Hit` |
| `Buildings` | buildings.dfy | `Building`: hits routed through a live shield, renovation, modernisation |
| `Explosions` | explosions.dfy | `Explosion`: the two construction modes and the `Radius` getter that grows the blast on every read |
| `Catalog` | catalog.dfy | engines and warheads; `MediumEngine` and `LargeWarhead` constructors, engine cloning |
| `Units` | units.dfy | the four movables as one tagged union; constructors, speed changes, `GetHit` with per-explosion de-duplication |
| `Worlds` | worlds.dfy | the view model's state plus the game manager's canvas and queues; the status indicators; `Evolves`, the frame of what a unit's turn may change |
| `Manager` | manager.dfy | `GameManager`: collision tests, scoring, explosion placement, the generators, building placement |
| `Motion` | motion.dfy | each unit's `Move` and `Explode` |
| `Director` | director.dfy | `GmTick`, `MoveElements`, `CheckExplosions`, `CheckBuildings` |
| `Commands` | commands.dfy | the window's handlers: nuclear countdown, launching, research, upkeep, cheat, and the per-tick call order |

Modelling choices:

- `double` is idealised as `real`. Distances are compared through their squares, which gives the same answer as comparing square roots of non-negative sums.
- Every `Random.Next(lo, hi)` draw is an argument constrained by `NextIn(v, lo, hi)`: `lo <= v < hi`, or `v == lo` when `lo == hi`, as `Random.Next` returns then. No value satisfies it when `lo > hi`.
- An explosion carries an `id` taken from the world's `nextId`. `List.Contains` on explosions is reference identity, and the id stands in for it. `IdsFresh` states that ids are unique, and every pass is proved to keep it.
- Reading `Explosion.Radius` returns the stored value and then grows it by one while it is below the cap. `ReadRadius` returns the pair `(value, explosion')`, and every read the collision test makes is threaded through the world.
- `Rect.IntersectsWith` is taken as closed on every side: rectangles touching at an edge intersect.
- Doc comments in the C# code that disagree with the code itself are not followed; the code is:
  - `Building.Modernize` adds one to the maximum, though its comment says it doubles it.
  - `GenerateMeteor` gives an ultra-solid meteor 2 hit points, though its comment says 2 or 3.
  - `GenerateExplosion` queues the explosion, though its comment says it adds it directly.
- `GmTick` admits only ⌈n/2⌉ of n queued items per queue, because its loop bound re-reads the shrinking queue. The model does the same.
- A jet hit by an explosion is removed in the same tick. `GetHit` returns false, so `Move` runs next, finds the jet destroyed, explodes it and returns false.

## Model

| member | source | states |
|---|---|---|
| Common.RoundHalfEven | AirspaceCommander/GameManager.cs:144 | the result is an integer within a half of the input, and an exact half goes to the even neighbour |
| Common.RoundHalfEvenUnique | AirspaceCommander/GameManager.cs:144 | that characterisation pins the rounded value down: any integer meeting it is the rounding |
| Geometry.IntersectsWith | AirspaceCommander/GameManager.cs:88-90 | for rectangles of non-negative size, the edge comparisons hold exactly when some point lies in both |
| Shields.NewShield | AirspaceCommander/Shield.cs:46-50 | a new shield starts with current hit points equal to its maximum |
| Shields.SetCurHP | AirspaceCommander/Shield.cs:63-77 | the setter stores a non-negative value and silently ignores a negative one; the maximum never changes |
| Shields.Hit | AirspaceCommander/Shield.cs:83-93 | a hit leaves `max(curHP - damage, 0)` hit points and the maximum unchanged |
| Shields.SetCurHPKeepsNonNegative | AirspaceCommander/Shield.cs:70-76 | once hit points are non-negative no write through the setter makes them negative |
| Shields.HitNeverNegative | AirspaceCommander/Shield.cs:83-93 | for any shield and any damage, a hit leaves the shield at zero or above |
| Shields.HitDepletedStaysZero | AirspaceCommander/Shield.cs:85-92 | a shield at zero stays exactly as it is under any non-negative hit |
| Shields.HitOverflowExample | AirspaceCommander/Shield.cs:83-93 | a 5-point shield hit for 8 is left at 0 |
| Buildings.NewBuilding | AirspaceCommander/Building.cs:51-56 | a new building is at full health, unshielded, at the given place |
| Buildings.Hit | AirspaceCommander/Building.cs:114-124 | with a live shield the whole hit goes to the shield and the building's hit points stay; otherwise they fall by exactly the damage; place and maximum never change |
| Buildings.IsOKIff | AirspaceCommander/Building.cs:79-92 | a building is standing exactly when its hit points are above zero |
| Buildings.ShieldAbsorbsWholeHit | AirspaceCommander/Building.cs:116-119 | a hit larger than the shield's hit points still leaves the building untouched and empties the shield |
| Buildings.HitTimesUnshielded | AirspaceCommander/Building.cs:120-123 | n unshielded hits of d lower hit points by exactly n·d, going below zero if need be |
| Buildings.ThreeHitsDestroy | AirspaceCommander/Building.cs:114-124 | a new 3-point building hit three times for 1 has 0 hit points and is no longer standing |
| Buildings.Renovate | AirspaceCommander/Building.cs:129-135 | renovation heals one point exactly when below the maximum and otherwise changes nothing |
| Buildings.RenovateKeepsBound | AirspaceCommander/Building.cs:129-135 | renovation keeps hit points within the maximum |
| Buildings.Modernize | AirspaceCommander/Building.cs:140-143 | modernisation raises the maximum by exactly one and changes nothing else |
| Buildings.ActivateShield | AirspaceCommander/Building.cs:149-152 | the new shield replaces any old one; hit points, maximum and place are kept |
| Explosions.NewExplosion | AirspaceCommander/Explosion.cs:53-67 | time to live 2 gives the full radius at once with a zero growth cap; any other starts at radius 1 with the given radius as cap |
| Explosions.ReadRadius | AirspaceCommander/Explosion.cs:72-85 | a read returns the stored radius and grows it by one exactly when it is below the cap; nothing but the radius changes |
| Explosions.ReadManyGrows | AirspaceCommander/Explosion.cs:76-83 | the j-th of successive reads sees `min(radius + j, cap)` |
| Explosions.ReadsMonotoneBounded | AirspaceCommander/Explosion.cs:76-83 | successive reads never decrease and never pass the cap |
| Explosions.GrowingSequence | AirspaceCommander/Explosion.cs:53-83 | a new growing explosion reads 1, 2, … up to its radius and then holds |
| Explosions.InstantIsStable | AirspaceCommander/Explosion.cs:56-59 | a new instant explosion reads its full radius every time and never changes |
| Explosions.SettledIsStable | AirspaceCommander/Explosion.cs:76-83 | an explosion at or past its cap reads the same radius forever |
| Explosions.SetTtl | AirspaceCommander/Explosion.cs:90-110 | the time-to-live setter changes only the time to live: place, damage and radius are fixed |
| Catalog.NewMediumEngine | AirspaceCommander/MediumEngine.cs:41-46 | speed is 15 plus the bonus and the speed rate 0 plus the bonus |
| Catalog.NewLargeWarhead | AirspaceCommander/LargeWarhead.cs:41-46 | damage is 1 plus the bonus and the radius 50 plus the bonus |
| Catalog.Clone | AirspaceCommander/MediumEngine.cs:78-81 | a clone has the same name, speed and speed rate |
| Catalog.SetSpeed | AirspaceCommander/MediumEngine.cs:59-63 | the speed setter changes only the speed |
| Catalog.SetSpeedRate | AirspaceCommander/MediumEngine.cs:68-72 | the speed-rate setter changes only the speed rate |
| Catalog.CloneIsIndependent | AirspaceCommander/MediumEngine.cs:59-81 | a retuned clone carries exactly the new speed and rate and keeps the name of the catalog entry it was copied from |
| Catalog.EngineText | AirspaceCommander/MediumEngine.cs:87-90 | an engine displays as its name |
| Catalog.WarheadText | AirspaceCommander/LargeWarhead.cs:76-79 | a warhead displays as its name |
| Units.Width | AirspaceCommander/GameManager.cs:85-86 | the width read from each class's `W` constant: 30 for a rocket or a meteor, 70 for a UFO or a jet |
| Units.Height | AirspaceCommander/GameManager.cs:85-86 | the height read from each class's `H` constant: 30 for a rocket or a meteor, 40 for a UFO or a jet |
| Units.NewMeteor | AirspaceCommander/Meteor.cs:88-99 | a meteor starts where it is, at full health, with nothing seen, aiming straight down at the given height |
| Units.NewUfo | AirspaceCommander/Ufo.cs:84-104 | a UFO flies level; its speed has the engine's size and points towards the target |
| Units.NewJet | AirspaceCommander/Jet.cs:83-103 | a jet flies level at one and a half times the engine's speed towards the target, carrying 2 to 4 rockets |
| Units.Aim | AirspaceCommander/Rocket.cs:96-112 | the velocity is the engine's speed split along the line to the target in proportion to each axis's share of the taxicab distance; the same for the thrust with a hundredth of the speed rate |
| Units.NewRocket | AirspaceCommander/Rocket.cs:96-112 | a rocket starts where it is, undestroyed, with the given engine, warhead and allegiance, aimed by `Aim` |
| Units.Accelerate | AirspaceCommander/Ufo.cs:222-232 | the speed change adds a hundredth of the rate while left of the target and subtracts it otherwise |
| Units.UfoChangeSpeed | AirspaceCommander/Ufo.cs:222-232 | a UFO's speed grows towards the target by a hundredth of its engine's rate; nothing else changes |
| Units.JetChangeSpeed | AirspaceCommander/Jet.cs:218-228 | the same rule for a jet |
| Units.MeteorGetHit | AirspaceCommander/Meteor.cs:243-252 | the first hit by an explosion costs its damage and is remembered; a repeat changes nothing; the answer is whether the meteor is now destroyed |
| Units.UfoGetHit | AirspaceCommander/Ufo.cs:251-260 | the same de-duplicated damage for a UFO, and the answer is always false |
| Units.JetGetHit | AirspaceCommander/Jet.cs:247-254 | any explosion destroys a jet, and the answer is always false |
| Units.RocketGetHit | AirspaceCommander/Rocket.cs:307-318 | an enemy rocket is destroyed and answers true; a friendly one is untouched and answers false |
| Units.GetHit | AirspaceCommander/GameManager.cs:366 | a hit keeps the kind and place; it answers true exactly for a meteor it destroys or an enemy rocket |
| Units.GetHitIdempotent | AirspaceCommander/Meteor.cs:245-249 | hitting again with the same explosion changes nothing more and gives the same answer |
| Units.MeteorHitAllAbsorbs | AirspaceCommander/Meteor.cs:243-252 | a run of hits costs exactly what the bookkeeping of seen explosions says |
| Units.AbsorbTwiceIsOnce | AirspaceCommander/Meteor.cs:245-249 | replaying the same explosions does no further damage |
| Units.AbsorbRecordsAll | AirspaceCommander/Meteor.cs:245-249 | after a run every explosion is remembered, and nothing remembered before is forgotten |
| Units.AbsorbSeenAll | AirspaceCommander/Meteor.cs:245-249 | explosions already remembered do no damage at all |
| Units.MeteorHitAllNoHeal | AirspaceCommander/Meteor.cs:243-252 | explosions with non-negative damage never raise a meteor's hit points |
| Worlds.InitialWorld | AirspaceCommander/ViewModel.cs:27-32 | a new game has score 0, 30 rockets, the nuclear launcher ready, shield level 1 and every list empty |
| Worlds.SetScore | AirspaceCommander/ViewModel.cs:236-248 | the score setter stores any value unclamped and changes nothing else |
| Worlds.SetRemainingRockets | AirspaceCommander/ViewModel.cs:253-265 | the rocket-count setter stores any value unclamped |
| Worlds.SetNuclearTimer | AirspaceCommander/ViewModel.cs:270-282 | the countdown setter stores any value unclamped |
| Worlds.NuclearColor | AirspaceCommander/ViewModel.cs:287-307 | black exactly while at most three warheads are known; then green exactly when the countdown is 0, red otherwise |
| Worlds.MediumEngineResearch | AirspaceCommander/ViewModel.cs:312-325 | red exactly when one engine is known |
| Worlds.LargeEngineResearch | AirspaceCommander/ViewModel.cs:330-343 | red exactly when at most two engines are known |
| Worlds.MediumWarheadResearch | AirspaceCommander/ViewModel.cs:348-361 | red exactly when at most one warhead is known |
| Worlds.LargeWarheadResearch | AirspaceCommander/ViewModel.cs:366-379 | red exactly when at most two warheads are known |
| Worlds.NuclearWarheadResearch | AirspaceCommander/ViewModel.cs:384-397 | red exactly when at most three warheads are known |
| Worlds.EvolvesRefl | AirspaceCommander/GameManager.cs:356-400 | doing nothing is an allowed change of the world |
| Worlds.EvolvesTrans | AirspaceCommander/GameManager.cs:356-400 | allowed changes compose, so a whole pass of turns is one |
| Worlds.EvolvesKeepsIdsFresh | AirspaceCommander/GameManager.cs:282-312 | no allowed change makes two explosions share an id |
| Worlds.EvolvesKeepsIdsFreshFrom | AirspaceCommander/GameManager.cs:282-312 | the same, from a world whose ids are already unique |
| Manager.CentredRect | AirspaceCommander/GameManager.cs:85-88 | a unit's box has its kind's size and is centred on its position |
| Manager.HitsBuilding | AirspaceCommander/GameManager.cs:82-91 | a unit touches a building exactly when, on each axis, their centres are at most half their two sizes apart |
| Manager.FirstBuildingHit | AirspaceCommander/Meteor.cs:198-205 | the answer is the first building in list order the unit's box meets, and none exactly when it meets none |
| Manager.HitsExplosion | AirspaceCommander/GameManager.cs:93-122 | the test changes only the explosion's radius, by at most the four reads it makes and never past the cap; a settled explosion is untouched |
| Manager.Excess | AirspaceCommander/GameManager.cs:119 | the distance beyond the half-side, and zero within it |
| Manager.CascadeMeaning | AirspaceCommander/GameManager.cs:99-121 | `GameManager.Intersects`'s four early exits and corner test decide exactly whether the circle reaches the box of half-sides around the corner point |
| Manager.HitsExplosionSettled | AirspaceCommander/GameManager.cs:93-122 | for a settled explosion the test answers exactly whether the blast circle reaches that box, and leaves the explosion as it was |
| Manager.Score | AirspaceCommander/GameManager.cs:344-351 | the score moves by the amount, and 10 rockets are granted exactly when the new score is a multiple of 10, spending included |
| Manager.ScoreTimesBonus | AirspaceCommander/GameManager.cs:344-351 | n single points grant 10 rockets for every multiple of 10 the score passes |
| Manager.SpendingGrantsBonus | AirspaceCommander/GameManager.cs:344-351 | spending 25 from a score of 35 lands on 10 and grants 10 rockets |
| Manager.ClampCoord | AirspaceCommander/GameManager.cs:291-308 | a blast overflowing the near edge is centred at r + 2, one overflowing the far edge at limit − r + 2, and one inside is left where it is |
| Manager.ClampEdges | AirspaceCommander/GameManager.cs:291-308 | after the clamp a blast at the near edge sits 2 inside it, and one at the far edge overhangs it by 2 |
| Manager.GenerateExplosion | AirspaceCommander/GameManager.cs:282-312 | the explosion is always queued with a fresh id; wider than the canvas it is instant and unclamped, otherwise it lasts 80 ticks and is clamped on both axes |
| Manager.GenerateEnemyEngine | AirspaceCommander/GameManager.cs:460-480 | an enemy engine is a copy of a catalog engine at three tenths of its speed, with speed rate 2 on a roll under 10 of 100 |
| Manager.GenerateEnemyRocket | AirspaceCommander/GameManager.cs:176-209 | an enemy rocket takes a catalog warhead and an enemy engine, aims at a random column at height ch − 30, starts at the top edge when no launch point is given and is queued exactly when one is |
| Manager.GenerateFriendlyRocket | AirspaceCommander/GameManager.cs:176-185 | the player's rocket leaves the bottom centre with copies of the selected engine and warhead, aimed at the click |
| Manager.GenerateMeteor | AirspaceCommander/GameManager.cs:216-229 | a meteor falls from height 1 in a random column to height ch − 30, where its box meets the bottom edge, with 2 hit points when ultra-solid and 1 otherwise |
| Manager.GenerateUfo | AirspaceCommander/GameManager.cs:235-252 | a UFO has the drawn 2 or 3 hit points and crosses at a random height from one side to the other with an enemy engine |
| Manager.GenerateJet | AirspaceCommander/GameManager.cs:258-274 | a jet crosses like a UFO, undestroyed, carrying 2 to 4 rockets |
| Manager.GenerateShield | AirspaceCommander/GameManager.cs:318-322 | a new shield is full at the current shield level |
| Manager.SeparatedMeaning | AirspaceCommander/GameManager.cs:149-150 | the placement test accepts a column exactly when it equals an earlier one or is at least a building's width away from it |
| Manager.GenerateBuildings | AirspaceCommander/GameManager.cs:134-167 | n buildings at height ch − 100, standing on the bottom edge, each with its drawn 3 to 5 hit points, pairwise separated, each on a drawn column; or none if the draws run out |
| Manager.PlaceFromColumns | AirspaceCommander/GameManager.cs:142-163 | every building the sampling adds stands on one of the drawn columns |
| Manager.PlaceClearDraws | AirspaceCommander/GameManager.cs:138-164 | when the first n draws are pairwise separated, placement succeeds and puts building i on draw i |
| Manager.GenerateClearDraws | AirspaceCommander/GameManager.cs:134-167 | the same for a whole city: pairwise separated draws become its columns, in order |
| Manager.SameColumnTwice | AirspaceCommander/GameManager.cs:149-156 | two draws of the same column are both accepted, stacking two buildings on one footprint |
| Motion.HitBuilding | AirspaceCommander/Meteor.cs:228-236 | exactly the chosen building takes the hit; every other part of the world is unchanged |
| Motion.MeteorMove | AirspaceCommander/Meteor.cs:190-221 | a live meteor hits the first building it meets for 1 and stops; otherwise it stops on arrival or falls 3 and goes on; only buildings ever change |
| Motion.MeteorFallStep | AirspaceCommander/Meteor.cs:207-220 | over open ground a meteor after j steps moves on exactly while 3·j is short of its fall, one more step down |
| Motion.StepX | AirspaceCommander/Ufo.cs:206-213 | a step left that would pass the target stops exactly on it, and one that would not is taken in full; a step right is taken in full |
| Motion.Wreck | AirspaceCommander/Ufo.cs:239-244 | a wreck queues a 50-radius, 1-damage explosion at the unit's centre with the next id and scores one point, paying the rocket bonus; nothing else changes |
| Motion.UfoMove | AirspaceCommander/Ufo.cs:187-217 | a destroyed UFO is wrecked and stops; a live one speeds up, stops on arrival, otherwise steps level and goes on |
| Motion.UfoFlightStaysOnCourse | AirspaceCommander/Ufo.cs:197-213 | over any number of moves, a UFO flying leftward on its target's line never passes its target column and never changes height |
| Motion.JetStep | AirspaceCommander/Jet.cs:185-203 | a jet's step changes only its speed and horizontal place |
| Motion.LaunchPoint | AirspaceCommander/Jet.cs:207 | a jet launches from 23 right and 20 below its position, the integer third of its width and half of its height |
| Motion.JetMove | AirspaceCommander/Jet.cs:177-213 | a destroyed jet is wrecked; a live one stops on arrival, otherwise steps and, with rockets left and a roll under 20 of 900, queues one enemy rocket and has one fewer; a live jet that launches nothing leaves the world unchanged; the stock never goes negative |
| Motion.JetLaunchConserves | AirspaceCommander/Jet.cs:205-209 | rockets carried plus rockets queued is the same before and after a jet's turn |
| Motion.RocketExplode | AirspaceCommander/Rocket.cs:279-300 | the struck building, if any, takes the warhead's damage; a blast is queued, taking the next id, exactly unless the rocket is an enemy nuclear one; nothing else changes |
| Motion.ExplodeEach | AirspaceCommander/Rocket.cs:237-240 | the nuclear strike keeps the list of buildings and only makes allowed changes |
| Motion.NuclearStrikeHitsAll | AirspaceCommander/Rocket.cs:235-241 | an enemy nuclear strike hits every building for the warhead's damage and changes nothing else |
| Motion.Accelerated | AirspaceCommander/Rocket.cs:205-212 | the speed change adds the thrust to the velocity and changes nothing else |
| Motion.Impact | AirspaceCommander/Rocket.cs:229-233 | a friendly rocket never tests buildings; an enemy one finds the first building it meets |
| Motion.RocketMove | AirspaceCommander/Rocket.cs:220-272 | a destroyed rocket explodes in place; an enemy rocket meeting a building explodes on it, all buildings for a nuclear warhead; on arrival it snaps to the target and explodes; otherwise it accelerates, steps and goes on; a friendly rocket never touches a building |
| Motion.Move | AirspaceCommander/IMovable.cs:58-63 | a unit's turn is its own kind's move (rocket, meteor, UFO or jet) with that move's answer, unit and world; it keeps kind and allegiance, and only a live unit goes on |
| Director.Flush | AirspaceCommander/GameManager.cs:329-332 | the loop admits exactly ⌈n/2⌉ items, in queue order, and leaves the other ⌊n/2⌋ queued |
| Director.GmTick | AirspaceCommander/GameManager.cs:327-338 | the first ⌈n/2⌉ queued rockets and explosions are appended in order to the live lists; the rest stay queued; ids stay unique |
| Director.Kill | AirspaceCommander/GameManager.cs:368-382 | a hit that removes a unit scores one point, paying the rocket bonus; an enemy rocket also explodes where it is, queueing its blast without touching any building, and nothing else changes |
| Director.Strike | AirspaceCommander/GameManager.cs:362-388 | explosions are tried in order and the first destroying hit ends the search; the unit keeps its kind and place; a removal scores exactly one point, and a unit that stays leaves score and explosion queue as they were |
| Director.StrikeStep | AirspaceCommander/GameManager.cs:364 | against a settled explosion the touch test is the reach test and changes nothing |
| Director.SameBoxReaching | AirspaceCommander/GameManager.cs:93-98 | units of one kind at one place are reached by the same explosions |
| Director.StrikeMisses | AirspaceCommander/GameManager.cs:362-388 | a unit no settled explosion reaches comes back unchanged, not removed, in an unchanged world |
| Director.StrikeEnemyRocket | AirspaceCommander/GameManager.cs:364-376 | an enemy rocket is removed exactly when some settled explosion reaches it |
| Director.StrikeFriendlyRocket | AirspaceCommander/GameManager.cs:362-388 | a friendly rocket comes through settled explosions unchanged and is never removed by them |
| Director.StrikeJet | AirspaceCommander/GameManager.cs:362-388 | a jet is marked destroyed exactly when a settled explosion reaches it, is never removed by the strike, and nothing else about it or the world changes |
| Director.StrikeUfo | AirspaceCommander/GameManager.cs:362-388 | a UFO absorbs, once each, the damage of the settled explosions reaching it, and is never removed by the strike |
| Director.StrikeMeteor | AirspaceCommander/GameManager.cs:362-388 | a meteor in play is removed exactly when the reaching settled explosions, each counted once, use up its hit points; otherwise it absorbs them all in an unchanged world |
| Director.JetTurnStable | AirspaceCommander/GameManager.cs:356-400 | a jet's draws stay valid while earlier units change the world |
| Director.StruckTurnStable | AirspaceCommander/GameManager.cs:364-390 | the same after the unit itself has been hit |
| Director.TurnsForEvolves | AirspaceCommander/GameManager.cs:356-400 | the draws of all remaining units stay valid as the pass proceeds |
| Director.Handle | AirspaceCommander/GameManager.cs:362-393 | a unit removed by its strike is not moved and leaves the struck world; any other unit makes its move from where the strike left it, and stays exactly when that move answers true |
| Director.TracksSkip | AirspaceCommander/GameManager.cs:396-399 | dropping a unit keeps the survivors matched to their places |
| Director.TracksKeep | AirspaceCommander/GameManager.cs:396-399 | keeping a unit puts it first, matched to its place |
| Director.Pass | AirspaceCommander/GameManager.cs:360-399 | the survivors are matched in order to the units they came from, and the world changes only as allowed |
| Director.BeforeShift | AirspaceCommander/GameManager.cs:360 | taking the first unit's turn and then the others' is taking every turn in list order |
| Director.OutcomeShift | AirspaceCommander/GameManager.cs:360-393 | each later unit's turn has the same outcome seen from the whole list or from the rest |
| Director.OutcomesCons | AirspaceCommander/GameManager.cs:360-393 | the outcomes of a list are the first unit's followed by those of the rest |
| Director.KeptCons | AirspaceCommander/GameManager.cs:396-399 | keeping or dropping one more entry in front keeps the survivors matched to their outcomes |
| Director.PassCons | AirspaceCommander/GameManager.cs:360-399 | a pass over a list is the first unit's turn followed by a pass over the rest |
| Director.PassKeeps | AirspaceCommander/GameManager.cs:356-400 | a pass keeps exactly the units whose turn, in list order, answered that they stay, each as its turn left it, at their original positions in increasing order |
| Director.PassEnds | AirspaceCommander/GameManager.cs:356-400 | a pass ends in the world the last unit's turn left, each turn taken in the world the earlier turns left |
| Director.MoveElements | AirspaceCommander/GameManager.cs:356-400 | the new list holds, in their original order, exactly the units whose turn answered that they stay, each as its turn left it; the rest of the world is the one the last turn left; no survivor is destroyed and ids stay unique |
| Director.AgeKeepsExactly | AirspaceCommander/GameManager.cs:410-422 | an explosion survives ageing exactly when it had more than one tick left, one tick older |
| Director.AgeWitness | AirspaceCommander/GameManager.cs:410-422 | ageing keeps, in order and each once, exactly the explosions with more than one tick left, one tick older |
| Director.AgeAppend | AirspaceCommander/GameManager.cs:410-422 | ageing a concatenation is ageing each part |
| Director.AgeKeepsExactlyAll | AirspaceCommander/GameManager.cs:410-422 | the same for every explosion at once |
| Director.Lifetime | AirspaceCommander/GameManager.cs:405-423 | an explosion with t ticks left survives exactly t − 1 more ageing passes |
| Director.FreshIdsCons | AirspaceCommander/GameManager.cs:405-423 | a list has unique ids in range exactly when its head is in range and differs from its unique tail |
| Director.AgeIdsFrom | AirspaceCommander/GameManager.cs:405-423 | every aged explosion keeps an id of one before ageing |
| Director.AgeKeepsIdsFresh | AirspaceCommander/GameManager.cs:405-423 | ageing keeps ids unique |
| Director.AgeKeepsWorldIdsFresh | AirspaceCommander/GameManager.cs:405-423 | ageing the live list keeps the world's ids unique |
| Director.CheckExplosions | AirspaceCommander/GameManager.cs:405-423 | the live explosions become exactly those that had more than one tick left, each one tick older, in their order and each once; nothing else changes |
| Director.StandingWitness | AirspaceCommander/GameManager.cs:431-443 | clearing keeps, in order and each once, exactly the buildings still standing |
| Director.StandingAppend | AirspaceCommander/GameManager.cs:431-443 | clearing a concatenation is clearing each part |
| Director.CheckBuildings | AirspaceCommander/GameManager.cs:429-453 | exactly the ruined buildings are removed, the others keeping their order, and the game goes on exactly when a building stood |
| Commands.NuclearCountdown | AirspaceCommander/MainWindow.xaml.cs:130-136 | the countdown falls by one while positive and is left alone otherwise |
| Commands.CountdownSettles | AirspaceCommander/MainWindow.xaml.cs:130-136 | after n ticks a countdown of t reads `max(t − n, 0)` and never goes negative |
| Commands.FireRocket | AirspaceCommander/MainWindow.xaml.cs:193-208 | a launch needs rockets and, for a nuclear warhead, a finished countdown unless cheating; it adds exactly one player's rocket to the live units, spends one rocket and restarts the countdown at 60 for a nuclear warhead; a refused click changes nothing |
| Commands.FireKeepsRocketsNonNegative | AirspaceCommander/MainWindow.xaml.cs:195 | without the cheat the rocket count never goes negative |
| Commands.NuclearLockout | AirspaceCommander/MainWindow.xaml.cs:197-201 | right after a nuclear launch a second one is refused, and sixty countdown ticks free it |
| Commands.EngineResearch | AirspaceCommander/MainWindow.xaml.cs:215-236 | with one engine known the medium engine is added for 50, with two the large one for 80, if affordable or cheating, and the rocket bonus of spending through the score is paid; a purchase refused for lack of score, or any other engine count, changes nothing |
| Commands.WarheadResearch | AirspaceCommander/MainWindow.xaml.cs:243-272 | with one, two or three warheads known the medium (25), large (75) or nuclear (150) warhead is added if affordable or cheating, and the rocket bonus of spending through the score is paid; a purchase refused for lack of score, or any other warhead count, changes nothing |
| Commands.ResearchProgress | AirspaceCommander/MainWindow.xaml.cs:215-272 | research adds at most one item, stops at three engines and four warheads, and turns the bought tier's indicator from red to green |
| Commands.ResearchKeepsScoreNonNegative | AirspaceCommander/MainWindow.xaml.cs:217-269 | without the cheat research never drives the score negative |
| Commands.MapBuildings | AirspaceCommander/MainWindow.xaml.cs:283-286 | the operation is applied to every building, in place |
| Commands.AddShield | AirspaceCommander/MainWindow.xaml.cs:279-290 | for 25 every building gets a full shield at the current level, replacing any old one, and the score's rocket bonus is paid; otherwise nothing changes |
| Commands.RenovateAll | AirspaceCommander/MainWindow.xaml.cs:297-308 | for 70 every building is renovated and the score's rocket bonus is paid; otherwise nothing changes |
| Commands.ModernizeAll | AirspaceCommander/MainWindow.xaml.cs:315-326 | for 130 every building is modernised and the score's rocket bonus is paid; otherwise nothing changes |
| Commands.UpkeepKeepsBuildingsSound | AirspaceCommander/MainWindow.xaml.cs:297-326 | renovation and modernisation keep every standing building standing and within its maximum |
| Commands.UpgradeShield | AirspaceCommander/MainWindow.xaml.cs:333-340 | for 100 the shield level rises by one and the score's rocket bonus is paid; otherwise nothing changes |
| Commands.UpgradeThenShield | AirspaceCommander/MainWindow.xaml.cs:279-340 | an upgrade followed by new shields gives every building a shield one level stronger |
| Commands.KeyDown | AirspaceCommander/MainWindow.xaml.cs:347-353 | the cheat switch flips exactly when the key pressed is K |
| Commands.Spawned | AirspaceCommander/MainWindow.xaml.cs:145-173 | a unit is spawned exactly on a roll of at most 20 in 1000; it is live, and for kinds 0 to 3 it is the generated enemy rocket from the top edge, the meteor (1 hit point on a meteor roll of 1, else 2), the UFO with the drawn hit points, or the jet with 2 to 4 rockets |
| Commands.Tick | AirspaceCommander/MainWindow.xaml.cs:143-186 | the tick is admission and spawning, then the units' turns, then ageing, then clearing, in that order: afterwards every explosion is live, every building stands, no unit is destroyed, ids stay unique, and the game goes on exactly when a building remains |

## Left out

- Canvases too small for a draw range: `Random.Next(lo, hi)` throws when `lo > hi`, for example on a canvas narrower than a building in `GenerateBuildings`. `NextIn` has no value then, so the generators' requires exclude such canvases and the exception is not modelled.
- Rendering: the geometry converters, the brushes, `DoDraw` and the `Self` property draw the game and change no rule. `ExplosionToGeometryConverter` also reads `Radius`, which grows a blast; only the reads made by the game's own passes are modelled.
- `Bindable`: property-change notification only.
- Window plumbing: the two `DispatcherTimer`s, the message box and `Close` at game over, the mouse-position lookup, and `Window_Loaded`, which builds the first four buildings and the small engine and warhead.
- `System.Random`: every draw is an argument, so spawn probabilities are not modelled, only which draws are possible.
- `Manager.GenerateBuildings`: its retry loop need not end. The model takes a finite stream of column draws and answers none when it runs out.
- The small engine, the large engine, and the small, medium and nuclear warheads: their classes are not part of this model. The research handlers take the three items bought there as arguments fixed by tier and name (`Commands.Kit`).
- `Units.Aim`: a launch onto its own start point divides by zero in the `Rocket` constructor. The model returns a caller-supplied flight in that case.
- Rocket `Angle` and the atan2 behind it: used only for drawing.
- Rounding of `double`: arithmetic is exact on reals.
- 32-bit wrap-around of the score, the rocket count and the radius square in the collision test: integers are unbounded.
- `Rect.IntersectsWith`: taken as closed on every side, since its definition is outside the program.
- `Motion.JetLaunchConserves`: excludes a jet whose launch point is the origin. There `GenerateRocket` takes it for "no launch point", does not queue the rocket, and the rocket is lost.
- `Commands.FireRocket`: requires an engine and a warhead to be selected when the launch is allowed. `FireRocket_Click` would fail on a missing selection.
- `Manager.HitsExplosion`: states how much the reads can grow the radius. It does not state the answer of the test while the blast is still growing; `Manager.HitsExplosionSettled` states it once the blast has settled.
- `Director.Strike`: its own contract does not say which growing explosions touch a unit. `Director.StrikeMisses`, `Director.StrikeEnemyRocket`, `Director.StrikeFriendlyRocket`, `Director.StrikeJet`, `Director.StrikeUfo` and `Director.StrikeMeteor` say it for explosions that have settled; while a blast grows, each read widens it.
- `Director.StrikeMeteor`: requires a meteor with hit points left and explosions of non-negative damage, as every meteor in play and every explosion the game makes have.

=== FILE: buildings.dfy ===
/** A building of the city: integer hit points, an optional shield that takes
    damage first, and a fixed position with its base on the canvas's bottom
    edge. */
module Buildings {
  import opened Common
  import opened Geometry
  import Shields

  const W: real := 100.0
  const H: real := 100.0

  /** `position` has no setter; the other fields change only through the
      operations below. */
  datatype Building = Building(maxHP: int, curHP: int, shield: Option<Shields.Shield>, position: Point)

  function NewBuilding(maxHP: int, coords: Point): (b: Building)
    ensures b.curHP == b.maxHP == maxHP
    ensures b.shield == None && b.position == coords
  {
    Building(maxHP, maxHP, None, coords)
  }

  /** The building still stands. */
  predicate IsOK(b: Building)
  {
    if b.curHP <= 0 then false else true
  }

  /** A shield is present and has hit points left. */
  predicate ShieldLive(b: Building)
  {
    b.shield.Some? && b.shield.value.curHP > 0
  }

  /** Damage goes wholly to a live shield; otherwise the building loses
      exactly `damage` and may drop below zero. */
  function Hit(b: Building, damage: int): (b': Building)
    ensures b'.position == b.position && b'.maxHP == b.maxHP
    ensures ShieldLive(b) ==>
      b'.curHP == b.curHP && b'.shield == Some(Shields.Hit(b.shield.value, damage))
    ensures !ShieldLive(b) ==> b'.curHP == b.curHP - damage && b'.shield == b.shield
  {
    if b.shield.Some? && b.shield.value.curHP > 0 then
      b.(shield := Some(Shields.Hit(b.shield.value, damage)))
    else
      b.(curHP := b.curHP - damage)
  }

  /** Heal one point, never past the maximum. */
  function Renovate(b: Building): (b': Building)
    ensures b.curHP < b.maxHP ==> b'.curHP == b.curHP + 1
    ensures b.curHP >= b.maxHP ==> b' == b
    ensures b'.maxHP == b.maxHP && b'.shield == b.shield && b'.position == b.position
  {
    if b.curHP < b.maxHP then b.(curHP := b.curHP + 1) else b
  }

  /** Raise the maximum by one without healing (the doc comment says
      "doubles", the code increments). */
  function Modernize(b: Building): (b': Building)
    ensures b'.maxHP == b.maxHP + 1
    ensures b'.curHP == b.curHP && b'.shield == b.shield && b'.position == b.position
  {
    b.(maxHP := b.maxHP + 1)
  }

  /** Install a shield, discarding any previous one. */
  function ActivateShield(b: Building, s: Shields.Shield): (b': Building)
    ensures b'.shield == Some(s)
    ensures b'.curHP == b.curHP && b'.maxHP == b.maxHP && b'.position == b.position
  {
    b.(shield := Some(s))
  }

  /** `IsOK` is exactly "hit points above zero". */
  lemma IsOKIff(b: Building)
    ensures IsOK(b) <==> b.curHP > 0
  {
  }

  /** Renovation keeps a building within its maximum. */
  lemma RenovateKeepsBound(b: Building)
    requires b.curHP <= b.maxHP
    ensures Renovate(b).curHP <= Renovate(b).maxHP
  {
  }

  /** A shield absorbs a hit of any size, even one larger than its own hit
      points: the building itself is untouched. */
  lemma ShieldAbsorbsWholeHit(b: Building, damage: int)
    requires ShieldLive(b) && damage > b.shield.value.curHP
    ensures Hit(b, damage).curHP == b.curHP
    ensures Hit(b, damage).shield.value.curHP == 0
  {
  }

  /** Repeated unshielded hits add up: `n` hits of one point cost `n` points. */
  function HitTimes(b: Building, damage: int, n: nat): Building
    decreases n
  {
    if n == 0 then b else HitTimes(Hit(b, damage), damage, n - 1)
  }

  lemma {:induction false} HitTimesUnshielded(b: Building, damage: int, n: nat)
    requires b.shield == None
    ensures HitTimes(b, damage, n).curHP == b.curHP - n * damage
    ensures HitTimes(b, damage, n).shield == None
    decreases n
  {
    if n > 0 {
      HitTimesUnshielded(Hit(b, damage), damage, n - 1);
    }
  }

  /** The documented scenario: three one-point hits bring an unshielded
      three-point building to zero, and it is no longer OK. */
  lemma ThreeHitsDestroy(p: Point)
    ensures HitTimes(NewBuilding(3, p), 1, 3).curHP == 0
    ensures !IsOK(HitTimes(NewBuilding(3, p), 1, 3))
  {
    HitTimesUnshielded(NewBuilding(3, p), 1, 3);
  }
}

=== FILE: catalog.dfy ===
/** The ordnance catalog: engines (speed and acceleration) and warheads
    (damage and blast radius). Engines are copied for each unit that uses
    one; warheads are shared, which is harmless because they are immutable. */
module Catalog {

  datatype EngineTier = SmallEngine | MediumEngine | LargeEngine

  datatype Engine = Engine(tier: EngineTier, name: string, speed: real, speedRate: real)

  datatype WarheadTier = SmallWarhead | MediumWarhead | LargeWarhead | NuclearWarhead

  /** A warhead has no setter at all. */
  datatype Warhead = Warhead(tier: WarheadTier, name: string, damage: int, radius: int)

  const MediumEngineSpeed: real := 15.0
  const MediumEngineSpeedRate: real := 0.0
  const LargeWarheadDamage: int := 1
  const LargeWarheadRadius: int := 50

  /** The medium engine: base speed 15 and base rate 0, each plus a bonus. */
  function NewMediumEngine(name: string, extraSpeed: real, extraSr: real): (e: Engine)
    ensures e.tier == MediumEngine && e.name == name
    ensures e.speed - extraSpeed == MediumEngineSpeed
    ensures e.speedRate - extraSr == MediumEngineSpeedRate
  {
    Engine(MediumEngine, name, 15.0 + extraSpeed, 0.0 + extraSr)
  }

  /** The large warhead: base damage 1 and base radius 50, each plus a bonus. */
  function NewLargeWarhead(name: string, extraDmg: int, extraRadius: int): (w: Warhead)
    ensures w.tier == LargeWarhead && w.name == name
    ensures w.damage - extraDmg == LargeWarheadDamage
    ensures w.radius - extraRadius == LargeWarheadRadius
  {
    Warhead(LargeWarhead, name, 1 + extraDmg, 50 + extraRadius)
  }

  /** The memberwise copy: all fields are values, so the copy is equal to
      the original and shares nothing with it. */
  function Clone(e: Engine): (c: Engine)
    ensures c.name == e.name && c.speed == e.speed && c.speedRate == e.speedRate
    ensures c.tier == e.tier
  {
    Engine(e.tier, e.name, e.speed, e.speedRate)
  }

  function SetSpeed(e: Engine, v: real): (e': Engine)
    ensures e'.speed == v
    ensures e'.name == e.name && e'.speedRate == e.speedRate && e'.tier == e.tier
  {
    e.(speed := v)
  }

  function SetSpeedRate(e: Engine, v: real): (e': Engine)
    ensures e'.speedRate == v
    ensures e'.name == e.name && e'.speed == e.speed && e'.tier == e.tier
  {
    e.(speedRate := v)
  }

  /** `ToString` of an engine is its name. */
  function EngineText(e: Engine): (s: string)
    ensures s == e.name
  {
    e.name
  }

  /** `ToString` of a warhead is its name. */
  function WarheadText(w: Warhead): (s: string)
    ensures s == w.name
  {
    w.name
  }

  /** Tuning a clone of a catalog entry: the clone carries exactly the new
      values and keeps the entry's name. */
  lemma CloneIsIndependent(catalog: seq<Engine>, i: nat, v: real, rate: real)
    requires i < |catalog|
    ensures var tuned := SetSpeedRate(SetSpeed(Clone(catalog[i]), v), rate);
      tuned.speed == v && tuned.speedRate == rate && tuned.name == catalog[i].name
  {
  }
}

=== FILE: commands.dfy ===
/** The main window's handlers: the game clock, the nuclear countdown, the
    player's launch clicks, the research and upkeep purchases, and the cheat
    switch. */
module Commands {
  import opened Common
  import opened Geometry
  import opened Shields
  import opened Buildings
  import opened Explosions
  import opened Catalog
  import opened Units
  import opened Worlds
  import opened Manager
  import opened Motion
  import opened Director

  // ===== the nuclear countdown =====

  /** `NTimer_Tick`: one step of the countdown, which stops at zero. */
  function NuclearCountdown(w: World): (w': World)
    ensures w.nuclearTimer > 0 ==> w'.nuclearTimer == w.nuclearTimer - 1
    ensures w.nuclearTimer <= 0 ==> w'.nuclearTimer == w.nuclearTimer
    ensures w' == w.(nuclearTimer := w'.nuclearTimer)
  {
    if w.nuclearTimer > 0 then SetNuclearTimer(w, w.nuclearTimer - 1) else w
  }

  function CountdownTimes(w: World, n: nat): World
    decreases n
  {
    if n == 0 then w else CountdownTimes(NuclearCountdown(w), n - 1)
  }

  /** After `n` countdown ticks a non-negative timer reads `max(t - n, 0)`:
      the launcher is ready again after as many ticks as the timer showed. */
  lemma {:induction false} CountdownSettles(w: World, n: nat)
    requires w.nuclearTimer >= 0
    ensures CountdownTimes(w, n).nuclearTimer == MaxI(w.nuclearTimer - n, 0)
    ensures CountdownTimes(w, n) == w.(nuclearTimer := CountdownTimes(w, n).nuclearTimer)
    decreases n
  {
    if n > 0 {
      CountdownSettles(NuclearCountdown(w), n - 1);
    }
  }

  // ===== launching =====

  /** The selected warhead is the nuclear one. */
  predicate NuclearSelected(w: World)
  {
    w.selectedWarhead.Some? && w.selectedWarhead.value.tier == NuclearWarhead
  }

  /** The click launches: rockets remain and, for a nuclear warhead, the
      countdown is at zero; the cheat waives both. */
  predicate CanFire(w: World, cheat: bool)
  {
    (cheat || w.remainingRockets > 0)
    && (cheat || (NuclearSelected(w) && w.nuclearTimer == 0) || !NuclearSelected(w))
  }

  /** The countdown started by a nuclear launch. */
  const NuclearCooldown: int := 60

  /** `FireRocket_Click`: a launch adds the player's rocket straight to the
      movables and spends one rocket; a nuclear launch without the cheat
      restarts the countdown. A refused click changes nothing. */
  function FireRocket(w: World, cheat: bool, clickX: real, clickY: real, undefinedFlight: Ballistics): (w': World)
    requires CanFire(w, cheat) ==> w.selectedEngine.Some? && w.selectedWarhead.Some?
    ensures !CanFire(w, cheat) ==> w' == w
    ensures CanFire(w, cheat) ==>
      && w'.movables == w.movables + [RocketUnit(GenerateFriendlyRocket(w, clickX, clickY, undefinedFlight))]
      && w'.remainingRockets == w.remainingRockets - 1
      && w'.nuclearTimer == (if !cheat && NuclearSelected(w) then NuclearCooldown else w.nuclearTimer)
      && w' == w.(movables := w'.movables, remainingRockets := w'.remainingRockets, nuclearTimer := w'.nuclearTimer)
  {
    if CanFire(w, cheat) then
      var w1 := if !cheat && NuclearSelected(w) then SetNuclearTimer(w, NuclearCooldown) else w;
      var r := GenerateFriendlyRocket(w1, clickX, clickY, undefinedFlight);
      SetRemainingRockets(w1.(movables := w1.movables + [RocketUnit(r)]), w1.remainingRockets - 1)
    else w
  }

  /** Without the cheat the rocket count never goes negative. */
  lemma FireKeepsRocketsNonNegative(w: World, clickX: real, clickY: real, f: Ballistics)
    requires w.remainingRockets >= 0
    requires CanFire(w, false) ==> w.selectedEngine.Some? && w.selectedWarhead.Some?
    ensures FireRocket(w, false, clickX, clickY, f).remainingRockets >= 0
  {
  }

  /** A nuclear launch locks the launcher: until the countdown has run out
      no further launch is accepted without the cheat, and sixty countdown
      ticks unlock it. */
  lemma NuclearLockout(w: World, clickX: real, clickY: real, f: Ballistics)
    requires NuclearSelected(w) && w.selectedEngine.Some? && CanFire(w, false)
    ensures !CanFire(FireRocket(w, false, clickX, clickY, f), false)
    ensures FireRocket(w, false, clickX, clickY, f).nuclearTimer == NuclearCooldown
    ensures CountdownTimes(FireRocket(w, false, clickX, clickY, f), 60).nuclearTimer == 0
  {
    CountdownSettles(FireRocket(w, false, clickX, clickY, f), 60);
  }

  // ===== research =====

  /** The catalog items research adds whose classes are not part of this
      model, each standing for its constructor called with the name and zero
      bonuses. */
  datatype Kit = Kit(largeEngine: Engine, mediumWarhead: Warhead, nuclearWarhead: Warhead)

  predicate ValidKit(k: Kit)
  {
    && k.largeEngine.tier == LargeEngine && k.largeEngine.name == "Large"
    && k.mediumWarhead.tier == MediumWarhead && k.mediumWarhead.name == "Medium"
    && k.nuclearWarhead.tier == NuclearWarhead && k.nuclearWarhead.name == "Nuclear"
  }

  /** Prices of the research steps. */
  const MediumEngineCost: int := 50
  const LargeEngineCost: int := 80
  const MediumWarheadCost: int := 25
  const LargeWarheadCost: int := 75
  const NuclearWarheadCost: int := 150

  /** A purchase: `add` is applied and `cost` charged through the score if
      the cheat is on or the score covers it; otherwise nothing happens. */
  function Buy(w: World, cheat: bool, cost: int, add: World -> World): World
  {
    if cheat || w.score >= cost then Score(add(w), -cost) else w
  }

  /** `EngineResearch_Click`: with one engine known, the medium engine is
      bought for 50; with two, the large one for 80; otherwise nothing. */
  function EngineResearch(w: World, cheat: bool, k: Kit): (w': World)
    ensures |w.engines| == 1 && (cheat || w.score >= MediumEngineCost) ==>
      && w'.engines == w.engines + [NewMediumEngine("Medium", 0.0, 0.0)] && w'.score == w.score - MediumEngineCost
      && w'.remainingRockets == Score(w, -MediumEngineCost).remainingRockets
    ensures |w.engines| == 2 && (cheat || w.score >= LargeEngineCost) ==>
      && w'.engines == w.engines + [k.largeEngine] && w'.score == w.score - LargeEngineCost
      && w'.remainingRockets == Score(w, -LargeEngineCost).remainingRockets
    ensures |w.engines| == 1 && !(cheat || w.score >= MediumEngineCost) ==> w' == w
    ensures |w.engines| == 2 && !(cheat || w.score >= LargeEngineCost) ==> w' == w
    ensures |w.engines| !in {1, 2} ==> w' == w
    ensures w'.engines == w.engines ==> w' == w
    ensures w' == w.(engines := w'.engines, score := w'.score, remainingRockets := w'.remainingRockets)
  {
    if |w.engines| == 1 then
      Buy(w, cheat, MediumEngineCost, (v: World) => v.(engines := v.engines + [NewMediumEngine("Medium", 0.0, 0.0)]))
    else if |w.engines| == 2 then
      Buy(w, cheat, LargeEngineCost, (v: World) => v.(engines := v.engines + [k.largeEngine]))
    else w
  }

  /** `WarheadResearch_Click`: with one, two or three warheads known, the
      medium (25), large (75) or nuclear (150) warhead is bought. */
  function WarheadResearch(w: World, cheat: bool, k: Kit): (w': World)
    ensures |w.warheads| == 1 && (cheat || w.score >= MediumWarheadCost) ==>
      && w'.warheads == w.warheads + [k.mediumWarhead] && w'.score == w.score - MediumWarheadCost
      && w'.remainingRockets == Score(w, -MediumWarheadCost).remainingRockets
    ensures |w.warheads| == 2 && (cheat || w.score >= LargeWarheadCost) ==>
      && w'.warheads == w.warheads + [NewLargeWarhead("Large", 0, 0)] && w'.score == w.score - LargeWarheadCost
      && w'.remainingRockets == Score(w, -LargeWarheadCost).remainingRockets
    ensures |w.warheads| == 3 && (cheat || w.score >= NuclearWarheadCost) ==>
      && w'.warheads == w.warheads + [k.nuclearWarhead] && w'.score == w.score - NuclearWarheadCost
      && w'.remainingRockets == Score(w, -NuclearWarheadCost).remainingRockets
    ensures |w.warheads| == 1 && !(cheat || w.score >= MediumWarheadCost) ==> w' == w
    ensures |w.warheads| == 2 && !(cheat || w.score >= LargeWarheadCost) ==> w' == w
    ensures |w.warheads| == 3 && !(cheat || w.score >= NuclearWarheadCost) ==> w' == w
    ensures |w.warheads| !in {1, 2, 3} ==> w' == w
    ensures w'.warheads == w.warheads ==> w' == w
    ensures w' == w.(warheads := w'.warheads, score := w'.score, remainingRockets := w'.remainingRockets)
  {
    if |w.warheads| == 1 then
      Buy(w, cheat, MediumWarheadCost, (v: World) => v.(warheads := v.warheads + [k.mediumWarhead]))
    else if |w.warheads| == 2 then
      Buy(w, cheat, LargeWarheadCost, (v: World) => v.(warheads := v.warheads + [NewLargeWarhead("Large", 0, 0)]))
    else if |w.warheads| == 3 then
      Buy(w, cheat, NuclearWarheadCost, (v: World) => v.(warheads := v.warheads + [k.nuclearWarhead]))
    else w
  }

  /** Research walks the tiers in order: each step adds at most one item, a
      catalog of three engines or four warheads is complete, and the
      indicators switch from red to green exactly when the step is bought. */
  lemma ResearchProgress(w: World, cheat: bool, k: Kit)
    ensures |w.engines| <= |EngineResearch(w, cheat, k).engines| <= |w.engines| + 1
    ensures |w.warheads| <= |WarheadResearch(w, cheat, k).warheads| <= |w.warheads| + 1
    ensures |w.engines| >= 3 ==> EngineResearch(w, cheat, k) == w
    ensures |w.warheads| >= 4 ==> WarheadResearch(w, cheat, k) == w
    ensures |w.engines| == 1 && (cheat || w.score >= MediumEngineCost) ==>
      MediumEngineResearch(w) == "Red" && MediumEngineResearch(EngineResearch(w, cheat, k)) == "Green"
    ensures |w.warheads| == 3 && (cheat || w.score >= NuclearWarheadCost) ==>
      NuclearWarheadResearch(w) == "Red" && NuclearWarheadResearch(WarheadResearch(w, cheat, k)) == "Green"
      && NuclearColor(WarheadResearch(w, cheat, k)) != "Black"
  {
  }

  /** Without the cheat a purchase never drives the score negative. */
  lemma ResearchKeepsScoreNonNegative(w: World, k: Kit)
    requires w.score >= 0
    ensures EngineResearch(w, false, k).score >= 0
    ensures WarheadResearch(w, false, k).score >= 0
  {
  }

  // ===== upkeep =====

  const ShieldCost: int := 25
  const RenovateCost: int := 70
  const ModernizeCost: int := 130
  const UpgradeShieldCost: int := 100

  /** Apply `f` to every building. */
  function MapBuildings(bs: seq<Building>, f: Building -> Building): (r: seq<Building>)
    ensures |r| == |bs| && forall i :: 0 <= i < |bs| ==> r[i] == f(bs[i])
  {
    seq(|bs|, i requires 0 <= i < |bs| => f(bs[i]))
  }

  /** `AddShield_Click`: every building gets a fresh full shield at the
      current research level, replacing any old one; price 25. */
  function AddShield(w: World, cheat: bool): (w': World)
    ensures (cheat || w.score >= ShieldCost) ==> w'.score == w.score - ShieldCost
    ensures (cheat || w.score >= ShieldCost) ==> w'.remainingRockets == Score(w, -ShieldCost).remainingRockets
    ensures (cheat || w.score >= ShieldCost) ==> |w'.buildings| == |w.buildings|
    ensures (cheat || w.score >= ShieldCost) ==> forall i :: 0 <= i < |w.buildings| ==>
      w'.buildings[i] == w.buildings[i].(shield := Some(Shield(w.shieldResearch, w.shieldResearch)))
    ensures !(cheat || w.score >= ShieldCost) ==> w' == w
    ensures w' == w.(buildings := w'.buildings, score := w'.score, remainingRockets := w'.remainingRockets)
  {
    Buy(w, cheat, ShieldCost,
      (v: World) => v.(buildings := MapBuildings(v.buildings, (b: Building) => ActivateShield(b, GenerateShield(v)))))
  }

  /** `Renovate_Click`: every building heals one point up to its maximum;
      price 70. */
  function RenovateAll(w: World, cheat: bool): (w': World)
    ensures (cheat || w.score >= RenovateCost) ==> w'.score == w.score - RenovateCost
    ensures (cheat || w.score >= RenovateCost) ==> w'.remainingRockets == Score(w, -RenovateCost).remainingRockets
    ensures (cheat || w.score >= RenovateCost) ==> w'.buildings == MapBuildings(w.buildings, Renovate)
    ensures !(cheat || w.score >= RenovateCost) ==> w' == w
    ensures w' == w.(buildings := w'.buildings, score := w'.score, remainingRockets := w'.remainingRockets)
  {
    Buy(w, cheat, RenovateCost, (v: World) => v.(buildings := MapBuildings(v.buildings, Renovate)))
  }

  /** `Modernize_Click`: every building's maximum rises by one; price 130. */
  function ModernizeAll(w: World, cheat: bool): (w': World)
    ensures (cheat || w.score >= ModernizeCost) ==> w'.score == w.score - ModernizeCost
    ensures (cheat || w.score >= ModernizeCost) ==> w'.remainingRockets == Score(w, -ModernizeCost).remainingRockets
    ensures (cheat || w.score >= ModernizeCost) ==> w'.buildings == MapBuildings(w.buildings, Modernize)
    ensures !(cheat || w.score >= ModernizeCost) ==> w' == w
    ensures w' == w.(buildings := w'.buildings, score := w'.score, remainingRockets := w'.remainingRockets)
  {
    Buy(w, cheat, ModernizeCost, (v: World) => v.(buildings := MapBuildings(v.buildings, Modernize)))
  }

  /** Renovation and modernisation keep every building within its maximum
      and never destroy one. */
  lemma UpkeepKeepsBuildingsSound(w: World, cheat: bool)
    requires forall i :: 0 <= i < |w.buildings| ==> 0 < w.buildings[i].curHP <= w.buildings[i].maxHP
    ensures var bs := RenovateAll(w, cheat).buildings;
      forall i :: 0 <= i < |bs| ==> 0 < bs[i].curHP <= bs[i].maxHP
    ensures var bs := ModernizeAll(w, cheat).buildings;
      forall i :: 0 <= i < |bs| ==> 0 < bs[i].curHP <= bs[i].maxHP
  {
  }

  /** `UpgradeShield_Click`: shields bought from now on are one point
      stronger; price 100. Shields already installed keep their strength. */
  function UpgradeShield(w: World, cheat: bool): (w': World)
    ensures (cheat || w.score >= UpgradeShieldCost) ==>
      && w'.shieldResearch == w.shieldResearch + 1 && w'.score == w.score - UpgradeShieldCost
      && w'.remainingRockets == Score(w, -UpgradeShieldCost).remainingRockets
    ensures !(cheat || w.score >= UpgradeShieldCost) ==> w' == w
    ensures w' == w.(shieldResearch := w'.shieldResearch, score := w'.score, remainingRockets := w'.remainingRockets)
  {
    Buy(w, cheat, UpgradeShieldCost, (v: World) => v.(shieldResearch := v.shieldResearch + 1))
  }

  /** An upgrade followed by new shields gives every building a shield one
      point stronger than before. */
  lemma UpgradeThenShield(w: World)
    requires w.score >= UpgradeShieldCost + ShieldCost
    ensures var w' := AddShield(UpgradeShield(w, false), false);
      forall i :: 0 <= i < |w'.buildings| ==> w'.buildings[i].shield.value.maxHP == w.shieldResearch + 1
  {
  }

  /** `Window_KeyDown`: the K key flips the cheat switch; any other key
      leaves it alone. */
  function KeyDown(cheat: bool, keyIsK: bool): (c: bool)
    ensures c != cheat <==> keyIsK
  {
    if keyIsK then !cheat else cheat
  }

  // ===== the game clock =====

  /** The random draws of one clock tick's spawn: the spawn roll, the kind
      roll, and the draws of whichever unit is generated. */
  datatype SpawnDraws = SpawnDraws(roll: int, kind: int, rocket: RocketDraws, meteorRoll: int, meteorX: int,
                                   ufoHP: int, patrol: PatrolDraws, jetRockets: int)

  /** A spawn happens when the roll is at most 20 of 1000. */
  predicate Spawns(s: SpawnDraws)
  {
    s.roll <= 20
  }

  predicate ValidSpawn(w: World, s: SpawnDraws)
  {
    && NextIn(s.roll, 0, 1000)
    && (Spawns(s) ==> NextIn(s.kind, 0, 4))
    && (Spawns(s) && s.kind == 0 ==> ValidRocketDraws(w, Point(0.0, 0.0), s.rocket))
    && (Spawns(s) && s.kind == 1 ==> NextIn(s.meteorRoll, 0, 2) && NextIn(s.meteorX, 1, RoundHalfEven(w.cw - 30.0)))
    && (Spawns(s) && s.kind == 2 ==> NextIn(s.ufoHP, 2, 4) && ValidPatrolDraws(w, s.patrol))
    && (Spawns(s) && s.kind == 3 ==> ValidPatrolDraws(w, s.patrol) && NextIn(s.jetRockets, 2, 5))
  }

  /** The unit a tick spawns, if any: an enemy rocket from the top edge, a
      meteor (ultra-solid unless the meteor roll is 1), a UFO or a jet. */
  function Spawned(w: World, s: SpawnDraws): (m: Option<Movable>)
    requires ValidSpawn(w, s)
    ensures m.Some? <==> Spawns(s)
    ensures m.Some? ==> !IsDestroyed(m.value)
    ensures m.Some? && s.kind == 0 ==> IsEnemyRocket(m.value)
    ensures m.Some? && s.kind == 1 ==> m.value.MeteorUnit? && m.value.meteor.curHP == (if s.meteorRoll == 1 then 1 else 2)
    ensures m.Some? && s.kind == 2 ==> m.value.UfoUnit? && m.value.ufo.curHP == s.ufoHP
    ensures m.Some? && s.kind == 3 ==> m.value.JetUnit? && 2 <= m.value.jet.rocketNum <= 4
    ensures m.Some? && s.kind == 0 ==> m.value == RocketUnit(GenerateEnemyRocket(w, Point(0.0, 0.0), s.rocket).0)
    ensures m.Some? && s.kind == 1 ==> m.value == MeteorUnit(GenerateMeteor(w, s.meteorRoll != 1, s.meteorX))
    ensures m.Some? && s.kind == 2 ==> m.value == UfoUnit(GenerateUfo(w, s.ufoHP, s.patrol))
    ensures m.Some? && s.kind == 3 ==> m.value == JetUnit(GenerateJet(w, s.patrol, s.jetRockets))
  {
    if !Spawns(s) then None
    else if s.kind == 0 then Some(RocketUnit(GenerateEnemyRocket(w, Point(0.0, 0.0), s.rocket).0))
    else if s.kind == 1 then Some(MeteorUnit(GenerateMeteor(w, s.meteorRoll != 1, s.meteorX)))
    else if s.kind == 2 then Some(UfoUnit(GenerateUfo(w, s.ufoHP, s.patrol)))
    else Some(JetUnit(GenerateJet(w, s.patrol, s.jetRockets)))
  }

  /** The world after admission and spawning, which the units then move in. */
  function Populated(w: World, s: SpawnDraws): World
    requires ValidSpawn(Admit(w), s)
  {
    var w1 := Admit(w);
    match Spawned(w1, s)
    case None => w1
    case Some(m) => w1.(movables := w1.movables + [m])
  }

  /** What holds after every tick: explosion ids are fresh, no live
      explosion is spent, every building stands and no unit in play is
      destroyed. */
  predicate Sound(w: World)
  {
    && IdsFresh(w)
    && (forall i :: 0 <= i < |w.explosions| ==> w.explosions[i].ttl > 0)
    && (forall i :: 0 <= i < |w.buildings| ==> IsOK(w.buildings[i]))
    && (forall i :: 0 <= i < |w.movables| ==> !IsDestroyed(w.movables[i]))
  }

  /** `Timer_Tick`: admit queued objects, maybe spawn a unit, move every
      unit, age the explosions and clear the ruins. The game goes on while a
      building stands. */
  method Tick(w: World, s: SpawnDraws, turns: seq<JetTurn>) returns (w': World, going: bool)
    requires ValidSpawn(Admit(w), s)
    requires TurnsFor(Populated(w, s), Populated(w, s).movables, turns)
    ensures (w', going) == CheckBuildings(CheckExplosions(MoveElements(Populated(w, s), turns)))
    ensures going <==> |w'.buildings| > 0
    ensures (forall i :: 0 <= i < |w'.explosions| ==> w'.explosions[i].ttl > 0)
    ensures (forall i :: 0 <= i < |w'.buildings| ==> IsOK(w'.buildings[i]))
    ensures (forall i :: 0 <= i < |w'.movables| ==> !IsDestroyed(w'.movables[i]))
    ensures IdsFresh(w) ==> Sound(w')
    ensures w'.cw == w.cw && w'.ch == w.ch && w'.nuclearTimer == w.nuclearTimer
    ensures w'.engines == w.engines && w'.warheads == w.warheads && w'.shieldResearch == w.shieldResearch
  {
    var w1 := GmTick(w);
    var spawn := Spawned(w1, s);
    if spawn.Some? {
      w1 := w1.(movables := w1.movables + [spawn.value]);
    }
    assert w1 == Populated(w, s);
    assert IdsFresh(w) ==> IdsFresh(w1);
    var w2 := MoveElements(w1, turns);
    var w3 := CheckExplosions(w2);
    var res := CheckBuildings(w3);
    w', going := res.0, res.1;
    if |w'.buildings| > 0 {
      assert w'.buildings[0] in w'.buildings;
    }
    forall i | 0 <= i < |w'.buildings|
      ensures IsOK(w'.buildings[i])
    {
      assert w'.buildings[i] in w'.buildings;
    }
    forall i | 0 <= i < |w'.explosions|
      ensures w'.explosions[i].ttl > 0
    {
      assert w'.explosions[i] in w'.explosions;
    }
  }
}

=== FILE: common.dfy ===
/** Small shared vocabulary: an optional value, the range of a draw from the
    game's random generator, and the rounding the game applies to canvas sizes. */
module Common {

  /** An optional value, standing in for a nullable reference. */
  datatype Option<+T> = None | Some(value: T)

  function AbsR(x: real): (r: real)
    ensures r >= 0.0
    ensures r == x || r == -x
  {
    if x < 0.0 then -x else x
  }

  function MaxI(a: int, b: int): (m: int)
    ensures m >= a && m >= b
    ensures m == a || m == b
  {
    if a < b then b else a
  }

  /** `v` is a value `System.Random.Next(lo, hi)` can return: `lo` itself when
      the bounds coincide, otherwise `lo <= v < hi`. No value exists when
      `lo > hi`, the case where the generator throws. */
  predicate NextIn(v: int, lo: int, hi: int)
  {
    if lo == hi then v == lo else lo <= v < hi
  }

  /** `Math.Round` on a double: nearest integer, ties to the even neighbour. */
  function RoundHalfEven(x: real): (n: int)
    ensures -0.5 <= n as real - x <= 0.5
    ensures (n as real - x == 0.5 || x - n as real == 0.5) ==> n % 2 == 0
  {
    var f := x.Floor;
    var frac := x - f as real;
    if frac < 0.5 then f
    else if frac > 0.5 then f + 1
    else if f % 2 == 0 then f
    else f + 1
  }

  /** The rounding contract determines the result: any integer within one half
      of `x`, and even when exactly one half away, is the rounded value. */
  lemma RoundHalfEvenUnique(x: real, n: int)
    requires -0.5 <= n as real - x <= 0.5
    requires (n as real - x == 0.5 || x - n as real == 0.5) ==> n % 2 == 0
    ensures n == RoundHalfEven(x)
  {
  }
}

=== FILE: director.dfy ===
/** The game manager's per-tick services: admitting queued objects, moving
    every unit through the explosions, ageing explosions and clearing ruins. */
module Director {
  import opened Common
  import opened Buildings
  import opened Explosions
  import opened Units
  import opened Worlds
  import opened Manager
  import opened Motion

  // ===== admitting queued objects =====

  /** `GameManager.GmTick`'s admission loop, `for (i = 0; i < queue.Count; i++)
      live.Add(queue.Dequeue())`: its bound is re-read after every dequeue,
      so the loop stops half way and admits the first `ceil(n / 2)`
      entries, in queue order, leaving the rest for the next tick. */
  method Flush<T>(queue: seq<T>) returns (admitted: seq<T>, rest: seq<T>)
    ensures |admitted| == (|queue| + 1) / 2 && |rest| == |queue| / 2
    ensures admitted + rest == queue
  {
    admitted, rest := [], queue;
    var i := 0;
    while i < |rest|
      invariant 0 <= i <= |queue| && 2 * i <= |queue| + 1
      invariant |admitted| == i && admitted == queue[..i] && rest == queue[i..]
      decreases |rest| - i
    {
      admitted := admitted + [rest[0]];
      rest := rest[1..];
      i := i + 1;
    }
    assert admitted + rest == queue[..i] + queue[i..];
  }

  /** The world after admission: the first half (rounded up) of each queue
      joins its live list, in queue order. */
  function Admit(w: World): (w': World)
  {
    var k, l := (|w.rocketQueue| + 1) / 2, (|w.explosionQueue| + 1) / 2;
    w.(movables := w.movables + seq(k, i requires 0 <= i < k => RocketUnit(w.rocketQueue[i])),
       rocketQueue := w.rocketQueue[k..],
       explosions := w.explosions + w.explosionQueue[..l],
       explosionQueue := w.explosionQueue[l..])
  }

  /** `GmTick`: queued rockets join the movables and queued explosions join
      the live explosions, half a queue of each per tick. */
  method GmTick(w: World) returns (w': World)
    ensures var k := (|w.rocketQueue| + 1) / 2;
      && |w'.movables| == |w.movables| + k
      && w'.movables[..|w.movables|] == w.movables
      && (forall i :: 0 <= i < k ==> w'.movables[|w.movables| + i] == RocketUnit(w.rocketQueue[i]))
      && w'.rocketQueue == w.rocketQueue[k..]
    ensures var k := (|w.explosionQueue| + 1) / 2;
      && w'.explosions == w.explosions + w.explosionQueue[..k]
      && w'.explosionQueue == w.explosionQueue[k..]
    ensures w' == w.(movables := w'.movables, rocketQueue := w'.rocketQueue,
                     explosions := w'.explosions, explosionQueue := w'.explosionQueue)
    ensures IdsFresh(w) ==> IdsFresh(w')
    ensures w' == Admit(w)
  {
    var rockets, rocketsLeft := Flush(w.rocketQueue);
    var blasts, blastsLeft := Flush(w.explosionQueue);
    var units := seq(|rockets|, i requires 0 <= i < |rockets| => RocketUnit(rockets[i]));
    w' := w.(movables := w.movables + units, rocketQueue := rocketsLeft,
             explosions := w.explosions + blasts, explosionQueue := blastsLeft);
    assert rockets == w.rocketQueue[..|rockets|] && rocketsLeft == w.rocketQueue[|rockets|..];
    assert blasts == w.explosionQueue[..|blasts|] && blastsLeft == w.explosionQueue[|blasts|..];
    assert w'.explosions + w'.explosionQueue == w.explosions + w.explosionQueue;
  }

  // ===== moving the units =====

  /** Scoring and explosion for a unit an explosion has just destroyed: an
      enemy rocket scores a point and explodes where it is (without hitting
      any building); a meteor scores a point. */
  function Kill(m: Movable, w: World): (w': World)
    ensures w'.score == w.score + 1
    ensures m.RocketUnit? ==> w'.explosionQueue == RocketExplode(m.rocket, Score(w, 1), None).explosionQueue
    ensures m.RocketUnit? ==> w' == Score(w, 1).(explosionQueue := w'.explosionQueue, nextId := w'.nextId)
    ensures m.RocketUnit? ==> w' == RocketExplode(m.rocket, Score(w, 1), None)
    ensures !m.RocketUnit? ==> w' == Score(w, 1)
    ensures Evolves(w, w')
  {
    var w1 := Score(w, 1);
    if m.RocketUnit? then
      var w2 := RocketExplode(m.rocket, w1, None);
      EvolvesTrans(w, w1, w2);
      w2
    else w1
  }

  /** The explosion loop for one unit, from explosion `i` on: every
      explosion it touches hurts it once; the first hit that destroys it
      scores, possibly explodes it, and ends the loop. Touching tests read
      the explosions' radii, so they may widen. The answer is whether the
      unit was destroyed. */
  function Strike(m: Movable, w: World, i: nat): (res: (bool, Movable, World))
    requires i <= |w.explosions|
    ensures res.1.RocketUnit? == m.RocketUnit? && res.1.MeteorUnit? == m.MeteorUnit?
    ensures res.1.UfoUnit? == m.UfoUnit? && res.1.JetUnit? == m.JetUnit?
    ensures Position(res.1) == Position(m) && IsEnemyRocket(res.1) == IsEnemyRocket(m)
    ensures res.0 ==> IsDestroyed(res.1) && res.2.score == w.score + 1
    ensures res.0 ==> res.1.MeteorUnit? || IsEnemyRocket(m)
    ensures !res.0 ==> res.2.score == w.score && res.2.explosionQueue == w.explosionQueue
    ensures m.JetUnit? ==> res.1.jet == m.jet.(isDestroyed := res.1.jet.isDestroyed)
    ensures m.RocketUnit? && !IsEnemyRocket(m) ==> res.1 == m
    ensures Evolves(w, res.2)
    decreases |w.explosions| - i
  {
    if i == |w.explosions| then EvolvesRefl(w); (false, m, w)
    else
      var (touching, e) := HitsExplosion(m, w.explosions[i]);
      var w1 := w.(explosions := w.explosions[i := e]);
      assert w1.explosionQueue[|w.explosionQueue|..] == [];
      assert Evolves(w, w1);
      if touching then
        var (killed, m1) := GetHit(m, e);
        if killed then
          var w2 := Kill(m1, w1);
          EvolvesTrans(w, w1, w2);
          (true, m1, w2)
        else
          var res := Strike(m1, w1, i + 1);
          EvolvesTrans(w, w1, res.2);
          res
      else
        var res := Strike(m, w1, i + 1);
        EvolvesTrans(w, w1, res.2);
        res
  }

  // ----- strikes by settled explosions -----

  /** The explosions of `es` from `i` on have stopped growing, so a touch
      test reads their radii without widening them. */
  predicate SettledFrom(es: seq<Explosion>, i: nat)
  {
    forall j :: i <= j < |es| ==> es[j].radius >= es[j].maxRadius && es[j].radius >= 0
  }

  /** A settled explosion's circle reaches the unit's box. */
  predicate Reaches(m: Movable, e: Explosion)
  {
    WithinReach(AbsR(e.position.x - Position(m).x), AbsR(e.position.y - Position(m).y),
                Width(m) / 2.0, Height(m) / 2.0, e.radius as real)
  }

  /** The explosions of `es` that reach the unit, in order. */
  function Reaching(m: Movable, es: seq<Explosion>): seq<Explosion>
    decreases |es|
  {
    if es == [] then []
    else (if Reaches(m, es[0]) then [es[0]] else []) + Reaching(m, es[1..])
  }

  lemma ReachingFrom(m: Movable, es: seq<Explosion>, i: nat)
    requires i < |es|
    ensures Reaching(m, es[i..]) == (if Reaches(m, es[i]) then [es[i]] else []) + Reaching(m, es[i + 1..])
  {
    assert es[i..][1..] == es[i + 1..];
  }

  /** Two units of one kind at one position are reached by the same
      explosions. */
  lemma {:induction false} SameBoxReaching(a: Movable, b: Movable, es: seq<Explosion>)
    requires a.RocketUnit? == b.RocketUnit? && a.MeteorUnit? == b.MeteorUnit?
    requires a.UfoUnit? == b.UfoUnit? && a.JetUnit? == b.JetUnit?
    requires Position(a) == Position(b)
    ensures Reaching(a, es) == Reaching(b, es)
    decreases |es|
  {
    if es != [] {
      assert Width(a) == Width(b) && Height(a) == Height(b);
      SameBoxReaching(a, b, es[1..]);
    }
  }

  /** Against a settled explosion the touch test is the reach test and
      leaves the world as it was. */
  lemma StrikeStep(m: Movable, w: World, i: nat)
    requires i < |w.explosions| && SettledFrom(w.explosions, i)
    ensures HitsExplosion(m, w.explosions[i]) == (Reaches(m, w.explosions[i]), w.explosions[i])
    ensures w.(explosions := w.explosions[i := w.explosions[i]]) == w
  {
    HitsExplosionSettled(m, w.explosions[i]);
    assert w.explosions[i := w.explosions[i]] == w.explosions;
  }

  /** A unit no settled explosion reaches comes through unchanged, and so
      does the world. */
  lemma {:induction false} StrikeMisses(m: Movable, w: World, i: nat)
    requires i <= |w.explosions| && SettledFrom(w.explosions, i)
    requires Reaching(m, w.explosions[i..]) == []
    ensures Strike(m, w, i) == (false, m, w)
    decreases |w.explosions| - i
  {
    if i < |w.explosions| {
      StrikeStep(m, w, i);
      ReachingFrom(m, w.explosions, i);
      StrikeMisses(m, w, i + 1);
    }
  }

  /** An enemy rocket is destroyed exactly when some settled explosion
      reaches it. */
  lemma {:induction false} StrikeEnemyRocket(m: Movable, w: World, i: nat)
    requires IsEnemyRocket(m)
    requires i <= |w.explosions| && SettledFrom(w.explosions, i)
    ensures Strike(m, w, i).0 <==> exists j :: i <= j < |w.explosions| && Reaches(m, w.explosions[j])
    decreases |w.explosions| - i
  {
    if i < |w.explosions| {
      StrikeStep(m, w, i);
      if !Reaches(m, w.explosions[i]) {
        StrikeEnemyRocket(m, w, i + 1);
      }
    }
  }

  /** A friendly rocket flies through explosions untouched. */
  lemma {:induction false} StrikeFriendlyRocket(m: Movable, w: World, i: nat)
    requires m.RocketUnit? && !IsEnemyRocket(m)
    requires i <= |w.explosions| && SettledFrom(w.explosions, i)
    ensures Strike(m, w, i) == (false, m, w)
    decreases |w.explosions| - i
  {
    if i < |w.explosions| {
      StrikeStep(m, w, i);
      StrikeFriendlyRocket(m, w, i + 1);
    }
  }

  /** A jet is marked destroyed when any settled explosion reaches it, yet
      the strike never removes it; nothing else about it changes. */
  lemma {:induction false} StrikeJet(m: Movable, w: World, i: nat)
    requires m.JetUnit?
    requires i <= |w.explosions| && SettledFrom(w.explosions, i)
    ensures Strike(m, w, i) ==
      (false, JetUnit(m.jet.(isDestroyed := m.jet.isDestroyed || Reaching(m, w.explosions[i..]) != [])), w)
    decreases |w.explosions| - i
  {
    if i == |w.explosions| {
      assert m.jet.(isDestroyed := m.jet.isDestroyed) == m.jet;
    } else {
      StrikeStep(m, w, i);
      ReachingFrom(m, w.explosions, i);
      if Reaches(m, w.explosions[i]) {
        var m1 := JetUnit(m.jet.(isDestroyed := true));
        StrikeJet(m1, w, i + 1);
        assert m1.jet.(isDestroyed := true) == m.jet.(isDestroyed := true);
      } else {
        StrikeJet(m, w, i + 1);
      }
    }
  }

  /** A UFO absorbs the damage of every settled explosion reaching it that
      it has not met before, and the strike never removes it. */
  lemma {:induction false} StrikeUfo(m: Movable, w: World, i: nat)
    requires m.UfoUnit?
    requires i <= |w.explosions| && SettledFrom(w.explosions, i)
    ensures var a := Absorb(m.ufo.curHP, m.ufo.alreadyHit, Reaching(m, w.explosions[i..]));
      Strike(m, w, i) == (false, UfoUnit(m.ufo.(curHP := a.0, alreadyHit := a.1)), w)
    decreases |w.explosions| - i
  {
    if i == |w.explosions| {
      assert m.ufo.(curHP := m.ufo.curHP, alreadyHit := m.ufo.alreadyHit) == m.ufo;
    } else {
      var e := w.explosions[i];
      StrikeStep(m, w, i);
      ReachingFrom(m, w.explosions, i);
      if Reaches(m, e) {
        var m1 := GetHit(m, e).1;
        StrikeUfo(m1, w, i + 1);
        SameBoxReaching(m1, m, w.explosions[i + 1..]);
        var rest := Reaching(m, w.explosions[i + 1..]);
        assert ([e] + rest)[0] == e && ([e] + rest)[1..] == rest;
      } else {
        assert Reaching(m, w.explosions[i..]) == Reaching(m, w.explosions[i + 1..]);
        StrikeUfo(m, w, i + 1);
      }
    }
  }

  lemma {:induction false} ReachingDamage(m: Movable, es: seq<Explosion>)
    requires forall k :: 0 <= k < |es| ==> es[k].damage >= 0
    ensures forall k :: 0 <= k < |Reaching(m, es)| ==> Reaching(m, es)[k].damage >= 0
    decreases |es|
  {
    if es != [] {
      ReachingDamage(m, es[1..]);
    }
  }

  /** A meteor in play is destroyed exactly when the damage of the settled
      explosions reaching it, each counted once, uses up its hit points;
      otherwise it comes through having absorbed all of them, and the world
      is unchanged. */
  lemma {:induction false} StrikeMeteor(m: Movable, w: World, i: nat)
    requires m.MeteorUnit? && m.meteor.curHP > 0
    requires i <= |w.explosions| && SettledFrom(w.explosions, i)
    requires forall j :: i <= j < |w.explosions| ==> w.explosions[j].damage >= 0
    ensures var hit := MeteorHitAll(m.meteor, Reaching(m, w.explosions[i..]));
      && (Strike(m, w, i).0 <==> hit.curHP <= 0)
      && (hit.curHP > 0 ==> Strike(m, w, i) == (false, MeteorUnit(hit), w))
    decreases |w.explosions| - i
  {
    if i < |w.explosions| {
      var e := w.explosions[i];
      StrikeStep(m, w, i);
      ReachingFrom(m, w.explosions, i);
      if Reaches(m, e) {
        var (killed, m1) := GetHit(m, e);
        var rest := Reaching(m, w.explosions[i + 1..]);
        assert ([e] + rest)[0] == e && ([e] + rest)[1..] == rest;
        assert MeteorHitAll(m.meteor, [e] + rest) == MeteorHitAll(m1.meteor, rest);
        SameBoxReaching(m1, m, w.explosions[i + 1..]);
        if killed {
          ReachingDamage(m, w.explosions[i + 1..]);
          MeteorHitAllNoHeal(m1.meteor, rest);
        } else {
          StrikeMeteor(m1, w, i + 1);
        }
      } else {
        assert Reaching(m, w.explosions[i..]) == Reaching(m, w.explosions[i + 1..]);
        StrikeMeteor(m, w, i + 1);
      }
    }
  }

  /** A jet's turn stays valid while the jet is struck and the world
      evolves: it depends only on the catalog, the canvas and the jet's
      flight, none of which a strike or an evolution changes. */
  lemma JetTurnStable(w: World, w': World, j: Jet, d: bool, t: JetTurn)
    requires Evolves(w, w') && ValidJetTurn(w, j, t)
    ensures ValidJetTurn(w', j.(isDestroyed := d), t)
  {
    assert JetStep(j.(isDestroyed := d)) == JetStep(j).(isDestroyed := d);
  }

  lemma StruckTurnStable(w: World, w': World, m: Movable, m': Movable, t: JetTurn)
    requires Evolves(w, w') && (m.JetUnit? ==> ValidJetTurn(w, m.jet, t))
    requires m'.JetUnit? == m.JetUnit? && (m.JetUnit? ==> m'.jet == m.jet.(isDestroyed := m'.jet.isDestroyed))
    ensures m'.JetUnit? ==> ValidJetTurn(w', m'.jet, t)
  {
    if m.JetUnit? {
      JetTurnStable(w, w', m.jet, m'.jet.isDestroyed, t);
    }
  }

  /** Every jet in `ms` has a valid turn in the matching slot of `turns`. */
  predicate TurnsFor(w: World, ms: seq<Movable>, turns: seq<JetTurn>)
  {
    |turns| == |ms| && forall k :: 0 <= k < |ms| && ms[k].JetUnit? ==> ValidJetTurn(w, ms[k].jet, turns[k])
  }

  lemma TurnsForEvolves(w: World, w': World, ms: seq<Movable>, turns: seq<JetTurn>)
    requires Evolves(w, w') && TurnsFor(w, ms, turns)
    ensures TurnsFor(w', ms, turns)
  {
    forall k | 0 <= k < |ms| && ms[k].JetUnit?
      ensures ValidJetTurn(w', ms[k].jet, turns[k])
    {
      JetTurnStable(w, w', ms[k].jet, ms[k].jet.isDestroyed, turns[k]);
      assert ms[k].jet.(isDestroyed := ms[k].jet.isDestroyed) == ms[k].jet;
    }
  }

  /** One unit's share of `MoveElements`: struck by the explosions and,
      unless that destroyed it, moved. The answer is whether it stays. */
  function Handle(m: Movable, w: World, t: JetTurn): (res: (bool, Movable, World))
    requires m.JetUnit? ==> ValidJetTurn(w, m.jet, t)
    ensures var s := Strike(m, w, 0);
      && (s.1.JetUnit? ==> ValidJetTurn(s.2, s.1.jet, t))
      && (s.0 ==> res == (false, s.1, s.2))
      && (!s.0 ==> res == Move(s.1, s.2, t))
    ensures res.0 ==> !IsDestroyed(res.1)
    ensures SameKind(res.1, m)
    ensures Evolves(w, res.2)
  {
    var (killed, m1, w1) := Strike(m, w, 0);
    StruckTurnStable(w, w1, m, m1, t);
    if killed then (false, m1, w1)
    else
      var (alive, m2, w2) := Move(m1, w1, t);
      EvolvesTrans(w, w1, w2);
      (alive, m2, w2)
  }

  /** Same kind of unit, and for rockets the same side. */
  predicate SameKind(a: Movable, b: Movable)
  {
    && a.RocketUnit? == b.RocketUnit? && a.MeteorUnit? == b.MeteorUnit?
    && a.UfoUnit? == b.UfoUnit? && a.JetUnit? == b.JetUnit?
    && IsEnemyRocket(a) == IsEnemyRocket(b)
  }

  /** `kept` are live units standing for the units of `ms` at the strictly
      increasing positions `idx`, each of the same kind as its original. */
  predicate Tracks(kept: seq<Movable>, idx: seq<nat>, ms: seq<Movable>)
  {
    && |kept| == |idx| && Ascending(idx, |ms|)
    && (forall k :: 0 <= k < |idx| ==> SameKind(kept[k], ms[idx[k]]) && !IsDestroyed(kept[k]))
  }

  /** `idx` lists positions below `n`, strictly increasing. */
  predicate Ascending(idx: seq<nat>, n: nat)
  {
    && (forall k :: 0 <= k < |idx| ==> idx[k] < n)
    && (forall k, l :: 0 <= k < l < |idx| ==> idx[k] < idx[l])
  }

  function Shift(idx: seq<nat>): (r: seq<nat>)
    ensures |r| == |idx| && forall k :: 0 <= k < |idx| ==> r[k] == idx[k] + 1
  {
    seq(|idx|, k requires 0 <= k < |idx| => idx[k] + 1)
  }

  /** Positions in `ms[1..]` seen as positions in `ms`. */
  lemma ShiftFacts(idx: seq<nat>, n: nat)
    requires Ascending(idx, n)
    ensures Ascending(Shift(idx), n + 1) && Ascending([0] + Shift(idx), n + 1)
    ensures forall i: int :: i in Shift(idx) <==> i > 0 && i - 1 in idx
  {
    var s := Shift(idx);
    forall i: int
      ensures i in s <==> i > 0 && i - 1 in idx
    {
      if i in s {
        var k :| 0 <= k < |s| && s[k] == i;
        assert idx[k] == i - 1;
      }
      if i > 0 && i - 1 in idx {
        var k :| 0 <= k < |idx| && idx[k] == i - 1;
        assert s[k] == i;
      }
    }
    var s' := [0] + s;
    forall k, l | 0 <= k < l < |s'|
      ensures s'[k] < s'[l]
    {
      if k > 0 {
        assert s'[k] == s[k - 1];
      }
      assert s'[l] == s[l - 1];
    }
  }

  lemma TracksSkip(kept: seq<Movable>, idx: seq<nat>, ms: seq<Movable>)
    requires ms != [] && Tracks(kept, idx, ms[1..])
    ensures Tracks(kept, Shift(idx), ms)
  {
    forall k | 0 <= k < |idx|
      ensures ms[Shift(idx)[k]] == ms[1..][idx[k]]
    {
    }
  }

  lemma TracksKeep(m: Movable, kept: seq<Movable>, idx: seq<nat>, ms: seq<Movable>)
    requires ms != [] && Tracks(kept, idx, ms[1..])
    requires SameKind(m, ms[0]) && !IsDestroyed(m)
    ensures Tracks([m] + kept, [0] + Shift(idx), ms)
  {
    TracksSkip(kept, idx, ms);
    var kept', idx' := [m] + kept, [0] + Shift(idx);
    forall k | 1 <= k < |idx'|
      ensures kept'[k] == kept[k - 1] && idx'[k] == Shift(idx)[k - 1]
    {
    }
  }

  /** One pass of `MoveElements` over the units `ms`. The result lists the
      units still in play, with their original positions in `ms`. */
  function Pass(ms: seq<Movable>, w: World, turns: seq<JetTurn>): (res: (seq<Movable>, seq<nat>, World))
    requires TurnsFor(w, ms, turns)
    ensures Tracks(res.0, res.1, ms) && |res.0| <= |ms|
    ensures Evolves(w, res.2)
    decreases |ms|
  {
    if ms == [] then EvolvesRefl(w); ([], [], w)
    else
      var (alive, m1, w1) := Handle(ms[0], w, turns[0]);
      TurnsForEvolves(w, w1, ms, turns);
      assert TurnsFor(w1, ms[1..], turns[1..]);
      var (rest, idx, w2) := Pass(ms[1..], w1, turns[1..]);
      EvolvesTrans(w, w1, w2);
      if alive then
        TracksKeep(m1, rest, idx, ms);
        ([m1] + rest, [0] + Shift(idx), w2)
      else
        TracksSkip(rest, idx, ms);
        (rest, Shift(idx), w2)
  }

  // ----- the units' turns, one after another -----

  /** The world in which the unit at position `k` of `ms` takes its turn:
      every unit before it has taken its own, in list order. */
  function Before(ms: seq<Movable>, w: World, turns: seq<JetTurn>, k: nat): (v: World)
    requires TurnsFor(w, ms, turns) && k <= |ms|
    ensures Evolves(w, v)
    decreases k
  {
    if k == 0 then EvolvesRefl(w); w
    else
      var v := Before(ms, w, turns, k - 1);
      TurnsForEvolves(w, v, ms, turns);
      var v' := Handle(ms[k - 1], v, turns[k - 1]).2;
      EvolvesTrans(w, v, v');
      v'
  }

  /** What the turn of the unit at position `k` answers, and the unit it
      leaves, taken in the world `Before` gives it. */
  function Outcome(ms: seq<Movable>, w: World, turns: seq<JetTurn>, k: nat): (bool, Movable)
    requires TurnsFor(w, ms, turns) && k < |ms|
  {
    var v := Before(ms, w, turns, k);
    TurnsForEvolves(w, v, ms, turns);
    var h := Handle(ms[k], v, turns[k]);
    (h.0, h.1)
  }

  /** The outcomes of every unit's turn, in list order. */
  function Outcomes(ms: seq<Movable>, w: World, turns: seq<JetTurn>): (os: seq<(bool, Movable)>)
    requires TurnsFor(w, ms, turns)
    ensures |os| == |ms| && forall i :: 0 <= i < |ms| ==> os[i] == Outcome(ms, w, turns, i)
  {
    seq(|ms|, i requires 0 <= i < |ms| => Outcome(ms, w, turns, i))
  }

  /** `kept`, at the positions `idx`, are exactly the entries of `os` that
      answered that they stay, each with the unit it carries. */
  predicate Kept<T(==)>(os: seq<(bool, T)>, kept: seq<T>, idx: seq<nat>)
  {
    && |kept| == |idx| && Ascending(idx, |os|)
    && (forall i :: 0 <= i < |os| ==> (os[i].0 <==> i in idx))
    && (forall k :: 0 <= k < |idx| ==> kept[k] == os[idx[k]].1)
  }

  /** The survivors of a pass: the units of `ms` whose turn, taken in list
      order, answered that they stay, each as its turn left it. */
  predicate Survivors(kept: seq<Movable>, idx: seq<nat>, ms: seq<Movable>, w: World, turns: seq<JetTurn>)
    requires TurnsFor(w, ms, turns)
  {
    Kept(Outcomes(ms, w, turns), kept, idx)
  }

  /** Taking the first unit's turn and then the rest's is taking every
      unit's turn in order. */
  lemma {:induction false} BeforeShift(ms: seq<Movable>, w: World, turns: seq<JetTurn>, i: nat)
    requires TurnsFor(w, ms, turns) && 0 < i <= |ms|
    ensures var w1 := Handle(ms[0], w, turns[0]).2;
      && TurnsFor(w1, ms[1..], turns[1..])
      && Before(ms, w, turns, i) == Before(ms[1..], w1, turns[1..], i - 1)
    decreases i
  {
    var w1 := Handle(ms[0], w, turns[0]).2;
    TurnsForEvolves(w, w1, ms, turns);
    assert TurnsFor(w1, ms[1..], turns[1..]);
    if i > 1 {
      BeforeShift(ms, w, turns, i - 1);
      assert ms[1..][i - 2] == ms[i - 1] && turns[1..][i - 2] == turns[i - 1];
    }
  }

  lemma OutcomeShift(ms: seq<Movable>, w: World, turns: seq<JetTurn>, i: nat)
    requires TurnsFor(w, ms, turns) && 0 < i < |ms|
    ensures var w1 := Handle(ms[0], w, turns[0]).2;
      && TurnsFor(w1, ms[1..], turns[1..])
      && Outcome(ms, w, turns, i) == Outcome(ms[1..], w1, turns[1..], i - 1)
  {
    BeforeShift(ms, w, turns, i);
    assert ms[1..][i - 1] == ms[i] && turns[1..][i - 1] == turns[i];
  }

  /** The outcomes of the whole list: the first unit's, then those of the
      rest taken in the world the first turn left. */
  lemma OutcomesCons(ms: seq<Movable>, w: World, turns: seq<JetTurn>)
    requires TurnsFor(w, ms, turns) && ms != []
    ensures var h := Handle(ms[0], w, turns[0]);
      && TurnsFor(h.2, ms[1..], turns[1..])
      && Outcomes(ms, w, turns) == [(h.0, h.1)] + Outcomes(ms[1..], h.2, turns[1..])
  {
    var h := Handle(ms[0], w, turns[0]);
    BeforeShift(ms, w, turns, 1);
    var os, os' := Outcomes(ms, w, turns), Outcomes(ms[1..], h.2, turns[1..]);
    OutcomesTail(ms, w, turns);
    assert os[0] == (h.0, h.1);
    SeqCons(os, (h.0, h.1), os');
  }

  lemma OutcomesTail(ms: seq<Movable>, w: World, turns: seq<JetTurn>)
    requires TurnsFor(w, ms, turns) && ms != []
    ensures var w1 := Handle(ms[0], w, turns[0]).2;
      && TurnsFor(w1, ms[1..], turns[1..])
      && forall i :: 0 < i < |ms| ==> Outcomes(ms, w, turns)[i] == Outcomes(ms[1..], w1, turns[1..])[i - 1]
  {
    BeforeShift(ms, w, turns, 1);
    forall i | 0 < i < |ms|
      ensures Outcome(ms, w, turns, i) == Outcome(ms[1..], Handle(ms[0], w, turns[0]).2, turns[1..], i - 1)
    {
      OutcomeShift(ms, w, turns, i);
    }
  }

  /** A sequence is its head followed by its tail. */
  lemma SeqCons<T>(s: seq<T>, x: T, t: seq<T>)
    requires |s| == |t| + 1 && s[0] == x
    requires forall i :: 0 < i < |s| ==> s[i] == t[i - 1]
    ensures s == [x] + t
  {
  }

  /** Keeping or dropping one more entry in front. */
  lemma KeptCons<T>(o: (bool, T), os: seq<(bool, T)>, kept: seq<T>, idx: seq<nat>)
    requires Kept(os, kept, idx)
    ensures Kept([o] + os, if o.0 then [o.1] + kept else kept, if o.0 then [0] + Shift(idx) else Shift(idx))
  {
    ShiftFacts(idx, |os|);
    KeptMembers(o, os, idx);
    if o.0 {
      KeptKeep(o, os, kept, idx);
    } else {
      KeptDrop(o, os, kept, idx);
    }
  }

  lemma KeptMembers<T>(o: (bool, T), os: seq<(bool, T)>, idx: seq<nat>)
    requires forall i :: 0 <= i < |os| ==> (os[i].0 <==> i in idx)
    requires forall i: int :: i in Shift(idx) <==> i > 0 && i - 1 in idx
    ensures var idx' := if o.0 then [0] + Shift(idx) else Shift(idx);
      forall i :: 0 <= i < |os| + 1 ==> (([o] + os)[i].0 <==> i in idx')
  {
    var os', idx' := [o] + os, if o.0 then [0] + Shift(idx) else Shift(idx);
    forall i | 0 <= i < |os'|
      ensures os'[i].0 <==> i in idx'
    {
      if i > 0 {
        assert os'[i] == os[i - 1];
      }
    }
  }

  lemma KeptKeep<T>(o: (bool, T), os: seq<(bool, T)>, kept: seq<T>, idx: seq<nat>)
    requires |kept| == |idx| && forall k :: 0 <= k < |idx| ==> idx[k] < |os| && kept[k] == os[idx[k]].1
    ensures var os', kept', idx' := [o] + os, [o.1] + kept, [0] + Shift(idx);
      forall k :: 0 <= k < |idx'| ==> idx'[k] < |os'| && kept'[k] == os'[idx'[k]].1
  {
    var os', kept', idx' := [o] + os, [o.1] + kept, [0] + Shift(idx);
    forall k | 1 <= k < |idx'|
      ensures idx'[k] < |os'| && kept'[k] == os'[idx'[k]].1
    {
      assert kept'[k] == kept[k - 1] && idx'[k] == idx[k - 1] + 1;
      assert os'[idx[k - 1] + 1] == os[idx[k - 1]];
    }
  }

  lemma KeptDrop<T>(o: (bool, T), os: seq<(bool, T)>, kept: seq<T>, idx: seq<nat>)
    requires |kept| == |idx| && forall k :: 0 <= k < |idx| ==> idx[k] < |os| && kept[k] == os[idx[k]].1
    ensures var os', idx' := [o] + os, Shift(idx);
      forall k :: 0 <= k < |idx'| ==> idx'[k] < |os'| && kept[k] == os'[idx'[k]].1
  {
    var os' := [o] + os;
    forall k | 0 <= k < |idx|
      ensures kept[k] == os'[idx[k] + 1].1
    {
      assert os'[idx[k] + 1] == os[idx[k]];
    }
  }

  /** A pass over a non-empty list: the first unit's turn, then a pass
      over the rest. */
  lemma PassCons(ms: seq<Movable>, w: World, turns: seq<JetTurn>)
    requires TurnsFor(w, ms, turns) && ms != []
    ensures var h := Handle(ms[0], w, turns[0]);
      && TurnsFor(h.2, ms[1..], turns[1..])
      && var p := Pass(ms[1..], h.2, turns[1..]);
         Pass(ms, w, turns) == (if h.0 then [h.1] + p.0 else p.0, if h.0 then [0] + Shift(p.1) else Shift(p.1), p.2)
  {
    TurnsForEvolves(w, Handle(ms[0], w, turns[0]).2, ms, turns);
  }

  /** The world a pass over a non-empty list ends in is the one the pass
      over the rest ends in. */
  lemma PassConsWorld(ms: seq<Movable>, w: World, turns: seq<JetTurn>)
    requires TurnsFor(w, ms, turns) && ms != []
    ensures var h := Handle(ms[0], w, turns[0]);
      && TurnsFor(h.2, ms[1..], turns[1..])
      && Pass(ms, w, turns).2 == Pass(ms[1..], h.2, turns[1..]).2
  {
    PassCons(ms, w, turns);
  }

  /** One pass keeps exactly the units whose turn, taken in list order in
      the world the earlier turns left, answered that they stay, each as
      that turn left it. */
  lemma {:induction false} PassKeeps(ms: seq<Movable>, w: World, turns: seq<JetTurn>)
    requires TurnsFor(w, ms, turns)
    ensures var res := Pass(ms, w, turns); Survivors(res.0, res.1, ms, w, turns)
    decreases |ms|
  {
    if ms != [] {
      var h := Handle(ms[0], w, turns[0]);
      PassCons(ms, w, turns);
      var p := Pass(ms[1..], h.2, turns[1..]);
      PassKeeps(ms[1..], h.2, turns[1..]);
      OutcomesCons(ms, w, turns);
      KeptCons((h.0, h.1), Outcomes(ms[1..], h.2, turns[1..]), p.0, p.1);
    }
  }

  /** One pass ends in the world the last unit's turn left. */
  lemma {:induction false} PassEnds(ms: seq<Movable>, w: World, turns: seq<JetTurn>)
    requires TurnsFor(w, ms, turns)
    ensures Pass(ms, w, turns).2 == Before(ms, w, turns, |ms|)
    decreases |ms|
  {
    if ms != [] {
      var h := Handle(ms[0], w, turns[0]);
      var n := |ms[1..]|;
      assert n == |ms| - 1;
      PassConsWorld(ms, w, turns);
      calc {
        Pass(ms, w, turns).2;
        Pass(ms[1..], h.2, turns[1..]).2;
        { PassEnds(ms[1..], h.2, turns[1..]); }
        Before(ms[1..], h.2, turns[1..], n);
        { BeforeShift(ms, w, turns, |ms|); }
        Before(ms, w, turns, |ms|);
      }
    }
  }

  /** `MoveElements`: the units still in play replace the list, in their
      original order and each of its original kind; nothing destroyed
      stays. They are exactly the units whose turn, taken in list order,
      answered that they stay. */
  function MoveElements(w: World, turns: seq<JetTurn>): (w': World)
    requires TurnsFor(w, w.movables, turns)
    ensures |w'.movables| <= |w.movables|
    ensures forall k :: 0 <= k < |w'.movables| ==> !IsDestroyed(w'.movables[k])
    ensures exists idx :: Tracks(w'.movables, idx, w.movables) && Survivors(w'.movables, idx, w.movables, w, turns)
    ensures w' == Before(w.movables, w, turns, |w.movables|).(movables := w'.movables)
    ensures Evolves(w, w'.(movables := w.movables))
    ensures IdsFresh(w) ==> IdsFresh(w')
  {
    var (kept, idx, w1) := Pass(w.movables, w, turns);
    PassKeeps(w.movables, w, turns);
    PassEnds(w.movables, w, turns);
    assert Tracks(kept, idx, w.movables) && Survivors(kept, idx, w.movables, w, turns);
    EvolvesKeepsIdsFresh(w, w1);
    w1.(movables := kept)
  }

  // ===== ageing explosions =====

  /** `CheckExplosions` on a list: every explosion loses one tick of life
      and those left with none are dropped, the others keeping their order. */
  function Age(es: seq<Explosion>): (r: seq<Explosion>)
    ensures |r| <= |es|
    ensures forall k :: 0 <= k < |r| ==> r[k].ttl > 0
    decreases |es|
  {
    if es == [] then []
    else
      var e := SetTtl(es[0], es[0].ttl - 1);
      if e.ttl <= 0 then Age(es[1..]) else [e] + Age(es[1..])
  }

  /** An explosion survives ageing exactly when it had more than one tick
      left, and comes out one tick older and otherwise unchanged. */
  lemma {:induction false} AgeKeepsExactly(es: seq<Explosion>, e: Explosion)
    ensures e in Age(es) <==> exists i :: 0 <= i < |es| && es[i].ttl > 1 && e == es[i].(ttl := es[i].ttl - 1)
    decreases |es|
  {
    if es != [] {
      AgeKeepsExactly(es[1..], e);
      if e in Age(es) {
        if e !in Age(es[1..]) {
          assert es[0].ttl > 1 && e == es[0].(ttl := es[0].ttl - 1);
        } else {
          var i :| 0 <= i < |es[1..]| && es[1..][i].ttl > 1 && e == es[1..][i].(ttl := es[1..][i].ttl - 1);
          assert es[i + 1] == es[1..][i];
        }
      }
      if exists i :: 0 <= i < |es| && es[i].ttl > 1 && e == es[i].(ttl := es[i].ttl - 1) {
        var i :| 0 <= i < |es| && es[i].ttl > 1 && e == es[i].(ttl := es[i].ttl - 1);
        if i > 0 {
          assert es[1..][i - 1] == es[i];
        }
      }
    }
  }

  /** Each explosion's fate under ageing: whether it stays, and how it
      comes out, one tick older. */
  function AgeMarks(es: seq<Explosion>): (os: seq<(bool, Explosion)>)
    ensures |os| == |es|
    ensures forall i :: 0 <= i < |es| ==> os[i] == (es[i].ttl > 1, es[i].(ttl := es[i].ttl - 1))
  {
    seq(|es|, i requires 0 <= i < |es| => (es[i].ttl > 1, es[i].(ttl := es[i].ttl - 1)))
  }

  /** `out` holds, in their original order, exactly the explosions of `es`
      with more than one tick left, each one tick older: `idx` gives the
      position each came from. */
  predicate AgedFrom(out: seq<Explosion>, idx: seq<nat>, es: seq<Explosion>)
  {
    Kept(AgeMarks(es), out, idx)
  }

  /** Ageing keeps order and multiplicity: each survivor comes from its own
      position of the list, in order. */
  lemma {:induction false} AgeWitness(es: seq<Explosion>) returns (idx: seq<nat>)
    ensures AgedFrom(Age(es), idx, es)
    decreases |es|
  {
    if es == [] {
      idx := [];
    } else {
      var rest := AgeWitness(es[1..]);
      var o := (es[0].ttl > 1, es[0].(ttl := es[0].ttl - 1));
      assert AgeMarks(es) == [o] + AgeMarks(es[1..]);
      KeptCons(o, AgeMarks(es[1..]), Age(es[1..]), rest);
      assert Age(es) == if o.0 then [o.1] + Age(es[1..]) else Age(es[1..]);
      idx := if o.0 then [0] + Shift(rest) else Shift(rest);
    }
  }

  lemma AgeOrder(es: seq<Explosion>)
    ensures exists idx :: AgedFrom(Age(es), idx, es)
  {
    var idx := AgeWitness(es);
  }

  /** Ageing two lists one after the other is ageing their concatenation. */
  lemma {:induction false} AgeAppend(a: seq<Explosion>, b: seq<Explosion>)
    ensures Age(a + b) == Age(a) + Age(b)
    decreases |a|
  {
    if a == [] {
      assert a + b == b;
    } else {
      assert (a + b)[0] == a[0] && (a + b)[1..] == a[1..] + b;
      AgeAppend(a[1..], b);
    }
  }

  /** `n` ticks of ageing. */
  function AgeTimes(es: seq<Explosion>, n: nat): seq<Explosion>
    decreases n
  {
    if n == 0 then es else AgeTimes(Age(es), n - 1)
  }

  lemma {:induction false} AgeTimesEmpty(n: nat)
    ensures AgeTimes([], n) == []
    decreases n
  {
    if n > 0 {
      AgeTimesEmpty(n - 1);
    }
  }

  /** An explosion with `t` ticks to live is on screen for exactly `t` ticks:
      after `n` checks it is still there iff `n < t`. */
  lemma {:induction false} Lifetime(e: Explosion, n: nat)
    requires e.ttl >= 1
    ensures |AgeTimes([e], n)| == (if n < e.ttl then 1 else 0)
    decreases n
  {
    if n > 0 {
      var e1 := SetTtl(e, e.ttl - 1);
      if e1.ttl <= 0 {
        assert Age([e]) == [];
        AgeTimesEmpty(n - 1);
      } else {
        assert Age([e]) == [e1];
        Lifetime(e1, n - 1);
      }
    }
  }

  /** Ids of a list with one more element in front. */
  lemma FreshIdsCons(e: Explosion, s: seq<Explosion>, lo: nat, hi: nat)
    ensures FreshIds([e] + s, lo, hi) <==>
      lo <= e.id < hi && FreshIds(s, lo, hi) && forall k :: 0 <= k < |s| ==> s[k].id != e.id
  {
    var es := [e] + s;
    if FreshIds(s, lo, hi) && lo <= e.id < hi && forall k :: 0 <= k < |s| ==> s[k].id != e.id {
      forall i, j | 0 <= i < j < |es|
        ensures es[i].id != es[j].id
      {
        assert es[j] == s[j - 1];
        if i > 0 { assert es[i] == s[i - 1]; }
      }
    }
    if FreshIds(es, lo, hi) {
      assert es[0] == e;
      forall k | 0 <= k < |s|
        ensures lo <= s[k].id < hi
      {
        assert s[k] == es[k + 1];
      }
      forall i, j | 0 <= i < j < |s|
        ensures s[i].id != s[j].id
      {
        assert s[i] == es[i + 1] && s[j] == es[j + 1];
      }
      forall k | 0 <= k < |s|
        ensures s[k].id != e.id
      {
        assert s[k] == es[k + 1];
        assert es[0].id != es[k + 1].id;
      }
    }
  }

  /** Every explosion left after ageing carries the id of one before it. */
  lemma {:induction false} AgeIdsFrom(es: seq<Explosion>, k: nat)
    requires k < |Age(es)|
    ensures exists i :: 0 <= i < |es| && es[i].id == Age(es)[k].id
  {
    AgeKeepsExactly(es, Age(es)[k]);
  }

  /** Ageing the live list keeps ids fresh next to the queue. */
  lemma {:induction false} AgeKeepsIdsFresh(es: seq<Explosion>, q: seq<Explosion>, lo: nat, hi: nat)
    requires FreshIds(es + q, lo, hi)
    ensures FreshIds(Age(es) + q, lo, hi)
    decreases |es|
  {
    if es != [] {
      var rest := es[1..];
      assert es + q == [es[0]] + (rest + q);
      FreshIdsCons(es[0], rest + q, lo, hi);
      AgeKeepsIdsFresh(rest, q, lo, hi);
      var e := SetTtl(es[0], es[0].ttl - 1);
      if e.ttl > 0 {
        var s := Age(rest) + q;
        assert Age(es) + q == [e] + s;
        forall k | 0 <= k < |s|
          ensures s[k].id != e.id
        {
          if k < |Age(rest)| {
            AgeIdsFrom(rest, k);
            var i :| 0 <= i < |rest| && rest[i].id == Age(rest)[k].id;
            assert (rest + q)[i] == rest[i];
          } else {
            assert s[k] == (rest + q)[k - |Age(rest)| + |rest|];
          }
        }
        FreshIdsCons(e, s, lo, hi);
      }
    }
  }

  lemma AgeKeepsExactlyAll(es: seq<Explosion>)
    ensures forall e :: e in Age(es) <==>
      exists i :: 0 <= i < |es| && es[i].ttl > 1 && e == es[i].(ttl := es[i].ttl - 1)
  {
    forall e | true
      ensures e in Age(es) <==> exists i :: 0 <= i < |es| && es[i].ttl > 1 && e == es[i].(ttl := es[i].ttl - 1)
    {
      AgeKeepsExactly(es, e);
    }
  }

  lemma AgeKeepsWorldIdsFresh(w: World)
    ensures IdsFresh(w) ==> IdsFresh(w.(explosions := Age(w.explosions)))
  {
    if IdsFresh(w) {
      AgeKeepsIdsFresh(w.explosions, w.explosionQueue, 0, w.nextId);
    }
  }

  /** `CheckExplosions`. */
  function CheckExplosions(w: World): (w': World)
    ensures w' == w.(explosions := w'.explosions)
    ensures forall e :: e in w'.explosions <==>
      exists i :: 0 <= i < |w.explosions| && w.explosions[i].ttl > 1 && e == w.explosions[i].(ttl := w.explosions[i].ttl - 1)
    ensures exists idx :: AgedFrom(w'.explosions, idx, w.explosions)
    ensures IdsFresh(w) ==> IdsFresh(w')
  {
    AgeKeepsExactlyAll(w.explosions);
    AgeKeepsWorldIdsFresh(w);
    AgeOrder(w.explosions);
    w.(explosions := Age(w.explosions))
  }

  // ===== clearing ruins =====

  /** The buildings still standing, in order. */
  function Standing(bs: seq<Building>): (r: seq<Building>)
    ensures |r| <= |bs|
    ensures forall k :: 0 <= k < |r| ==> IsOK(r[k])
    ensures forall b :: b in r <==> b in bs && IsOK(b)
    decreases |bs|
  {
    if bs == [] then []
    else if IsOK(bs[0]) then [bs[0]] + Standing(bs[1..])
    else Standing(bs[1..])
  }

  /** Each building's fate when ruins are cleared: whether it stays. */
  function StandingMarks(bs: seq<Building>): (os: seq<(bool, Building)>)
    ensures |os| == |bs|
    ensures forall i :: 0 <= i < |bs| ==> os[i] == (IsOK(bs[i]), bs[i])
  {
    seq(|bs|, i requires 0 <= i < |bs| => (IsOK(bs[i]), bs[i]))
  }

  /** `out` holds, in their original order, exactly the buildings of `bs`
      still standing: `idx` gives the position each came from. */
  predicate StandingFrom(out: seq<Building>, idx: seq<nat>, bs: seq<Building>)
  {
    Kept(StandingMarks(bs), out, idx)
  }

  /** Clearing ruins keeps order and multiplicity. */
  lemma {:induction false} StandingWitness(bs: seq<Building>) returns (idx: seq<nat>)
    ensures StandingFrom(Standing(bs), idx, bs)
    decreases |bs|
  {
    if bs == [] {
      idx := [];
    } else {
      var rest := StandingWitness(bs[1..]);
      var o := (IsOK(bs[0]), bs[0]);
      assert StandingMarks(bs) == [o] + StandingMarks(bs[1..]);
      KeptCons(o, StandingMarks(bs[1..]), Standing(bs[1..]), rest);
      idx := if o.0 then [0] + Shift(rest) else Shift(rest);
    }
  }

  lemma StandingOrder(bs: seq<Building>)
    ensures exists idx :: StandingFrom(Standing(bs), idx, bs)
  {
    var idx := StandingWitness(bs);
  }

  /** Clearing two lists one after the other is clearing their
      concatenation. */
  lemma {:induction false} StandingAppend(a: seq<Building>, b: seq<Building>)
    ensures Standing(a + b) == Standing(a) + Standing(b)
    decreases |a|
  {
    if a == [] {
      assert a + b == b;
    } else {
      assert (a + b)[0] == a[0] && (a + b)[1..] == a[1..] + b;
      StandingAppend(a[1..], b);
    }
  }

  /** `CheckBuildings`: ruined buildings are cleared, the others keeping
      their order, and the answer is whether any building is left. */
  function CheckBuildings(w: World): (res: (World, bool))
    ensures res.0 == w.(buildings := res.0.buildings)
    ensures forall b :: b in res.0.buildings <==> b in w.buildings && IsOK(b)
    ensures exists idx :: StandingFrom(res.0.buildings, idx, w.buildings)
    ensures res.1 <==> exists k :: 0 <= k < |w.buildings| && IsOK(w.buildings[k])
  {
    StandingOrder(w.buildings);
    var bs := Standing(w.buildings);
    assert |bs| > 0 ==> bs[0] in bs;
    (w.(buildings := bs), |bs| != 0)
  }
}

=== FILE: explosions.dfy ===
/** An explosion: a circle of damage with a time to live. Reading its radius
    is not a pure query: a growing explosion widens by one on every read, so
    the read is modelled as a function returning the value and the explosion
    after the read. */
module Explosions {
  import opened Geometry

  /** `id` stands for the object's identity, which is what the "already hit"
      lists of meteors and UFOs compare. `position` and `damage` have no
      setter; `ttl` is written by the director. */
  datatype Explosion = Explosion(id: nat, position: Point, radius: int, maxRadius: int, damage: int, ttl: int)

  /** The time to live that selects an instant, full-size explosion. */
  const InstantTtl: int := 2

  /** A time to live of 2 gives the full radius at once and a zero growth cap;
      any other gives radius 1 growing towards `newRadius`. */
  function NewExplosion(id: nat, pos: Point, newRadius: int, newDamage: int, newTtl: int): (e: Explosion)
    ensures e.id == id && e.position == pos && e.damage == newDamage && e.ttl == newTtl
    ensures newTtl == InstantTtl ==> e.radius == newRadius && e.maxRadius == 0
    ensures newTtl != InstantTtl ==> e.radius == 1 && e.maxRadius == newRadius
  {
    if newTtl == InstantTtl then Explosion(id, pos, newRadius, 0, newDamage, newTtl)
    else Explosion(id, pos, 1, newRadius, newDamage, newTtl)
  }

  /** One read of `Radius`: the stored value is returned, then incremented
      when still below the cap (a post-increment). */
  function ReadRadius(e: Explosion): (res: (int, Explosion))
    ensures res.0 == e.radius
    ensures e.radius < e.maxRadius ==> res.1.radius == e.radius + 1
    ensures e.radius >= e.maxRadius ==> res.1 == e
    ensures res.1 == e.(radius := res.1.radius)
  {
    if e.radius < e.maxRadius then (e.radius, e.(radius := e.radius + 1))
    else (e.radius, e)
  }

  /** The `Ttl` setter, the only other write. */
  function SetTtl(e: Explosion, t: int): (e': Explosion)
    ensures e'.ttl == t
    ensures e'.id == e.id && e'.position == e.position && e'.damage == e.damage
    ensures e'.radius == e.radius && e'.maxRadius == e.maxRadius
  {
    e.(ttl := t)
  }

  /** `k` successive reads: the values seen and the explosion afterwards. */
  function ReadMany(e: Explosion, k: nat): (res: (seq<int>, Explosion))
    ensures |res.0| == k
    decreases k
  {
    if k == 0 then ([], e)
    else
      var (v, e1) := ReadRadius(e);
      var (vs, e2) := ReadMany(e1, k - 1);
      ([v] + vs, e2)
  }

  function MinI(a: int, b: int): int { if a < b then a else b }

  /** Reads of an explosion at or below its cap count up one at a time and
      then hold at the cap: the j-th read sees `min(radius + j, maxRadius)`.
      Only the radius ever changes. */
  lemma {:induction false} ReadManyGrows(e: Explosion, k: nat)
    requires e.radius <= e.maxRadius
    ensures forall j :: 0 <= j < k ==> ReadMany(e, k).0[j] == MinI(e.radius + j, e.maxRadius)
    ensures ReadMany(e, k).1 == e.(radius := MinI(e.radius + k, e.maxRadius))
    decreases k
  {
    if k > 0 {
      var (v, e1) := ReadRadius(e);
      ReadManyGrows(e1, k - 1);
      var vs := ReadMany(e1, k - 1).0;
      assert ReadMany(e, k).0 == [v] + vs;
      forall j | 0 <= j < k
        ensures ReadMany(e, k).0[j] == MinI(e.radius + j, e.maxRadius)
      {
        if j > 0 {
          assert ReadMany(e, k).0[j] == vs[j - 1];
        }
      }
    }
  }

  /** Reads never shrink a growing explosion and never carry it past its cap. */
  lemma ReadsMonotoneBounded(e: Explosion, k: nat)
    requires e.radius <= e.maxRadius
    ensures forall i, j :: 0 <= i <= j < k ==> ReadMany(e, k).0[i] <= ReadMany(e, k).0[j] <= e.maxRadius
    ensures e.radius <= ReadMany(e, k).1.radius <= e.maxRadius
  {
    ReadManyGrows(e, k);
  }

  /** A freshly built growing explosion reads 1, 2, ... up to its radius, then
      holds there. */
  lemma {:induction false} GrowingSequence(id: nat, pos: Point, r: int, dmg: int, ttl: int, k: nat)
    requires ttl != InstantTtl && r >= 1
    ensures forall j :: 0 <= j < k ==> ReadMany(NewExplosion(id, pos, r, dmg, ttl), k).0[j] == MinI(1 + j, r)
  {
    ReadManyGrows(NewExplosion(id, pos, r, dmg, ttl), k);
  }

  /** An instant explosion with a non-negative radius always reads that radius
      and is never changed by reading. */
  lemma {:induction false} InstantIsStable(id: nat, pos: Point, r: int, dmg: int, k: nat)
    requires r >= 0
    ensures forall j :: 0 <= j < k ==> ReadMany(NewExplosion(id, pos, r, dmg, InstantTtl), k).0[j] == r
    ensures ReadMany(NewExplosion(id, pos, r, dmg, InstantTtl), k).1 == NewExplosion(id, pos, r, dmg, InstantTtl)
  {
    var e := NewExplosion(id, pos, r, dmg, InstantTtl);
    SettledIsStable(e, k);
  }

  /** An explosion that has reached its cap is a fixed point of reading. */
  lemma {:induction false} SettledIsStable(e: Explosion, k: nat)
    requires e.radius >= e.maxRadius
    ensures forall j :: 0 <= j < k ==> ReadMany(e, k).0[j] == e.radius
    ensures ReadMany(e, k).1 == e
    decreases k
  {
    if k > 0 {
      SettledIsStable(e, k - 1);
      assert ReadMany(e, k).0 == [e.radius] + ReadMany(e, k - 1).0;
    }
  }
}

=== FILE: geometry.dfy ===
/** Points and axis-aligned rectangles of the play area, with `real` standing
    for C#'s `double`. */
module Geometry {

  datatype Point = Point(x: real, y: real)

  /** A rectangle given by its top-left corner and its size. */
  datatype Rect = Rect(x: real, y: real, w: real, h: real)

  function Right(r: Rect): real { r.x + r.w }

  function Bottom(r: Rect): real { r.y + r.h }

  /** `Rect.IntersectsWith`: overlap of two rectangles, closed on every
      side, so rectangles that only share an edge or a corner intersect. For
      rectangles of non-negative size the comparison test agrees with its
      set-of-points meaning: some point lies in both. */
  function IntersectsWith(a: Rect, b: Rect): (r: bool)
    ensures a.w >= 0.0 && a.h >= 0.0 && b.w >= 0.0 && b.h >= 0.0 ==>
      (r <==> exists p: Point :: Contains(a, p) && Contains(b, p))
  {
    var r := b.x <= Right(a) && Right(b) >= a.x && b.y <= Bottom(a) && Bottom(b) >= a.y;
    if r then
      var p := Point(if a.x < b.x then b.x else a.x, if a.y < b.y then b.y else a.y);
      assert a.w >= 0.0 && a.h >= 0.0 && b.w >= 0.0 && b.h >= 0.0 ==> Contains(a, p) && Contains(b, p);
      r
    else r
  }

  function Sq(x: real): real { x * x }

  /** Squared Euclidean distance; the units' arrival tests compare square
      roots of these sums, and for non-negative sums the comparison is the
      same. */
  function DistSq(p: Point, q: Point): (d: real)
    ensures d >= 0.0
  {
    SqNonNegative(p.x - q.x);
    SqNonNegative(p.y - q.y);
    Sq(p.x - q.x) + Sq(p.y - q.y)
  }

  lemma SqNonNegative(a: real)
    ensures Sq(a) >= 0.0
  {
    if a < 0.0 {
      assert Sq(a) == Sq(-a);
    }
  }

  lemma SqZero(a: real)
    requires a == 0.0
    ensures Sq(a) == 0.0
  {
  }

  lemma SqLessPositive(a: real, b: real)
    requires 0.0 < a < b
    ensures Sq(a) < Sq(b)
  {
  }

  lemma SqPos(b: real)
    requires b > 0.0
    ensures Sq(b) > 0.0
  {
    SqNonNegative(b / 2.0);
    SqLessPositive(b / 2.0, b);
  }

  /** Squaring is strictly monotone on the non-negative reals. */
  lemma SqLess(a: real, b: real)
    requires 0.0 <= a < b
    ensures Sq(a) < Sq(b)
  {
    if a == 0.0 {
      SqZero(a);
      SqPos(b);
    } else {
      SqLessPositive(a, b);
    }
  }

  lemma SqLessEq(a: real, b: real)
    requires 0.0 <= a <= b
    ensures Sq(a) <= Sq(b)
  {
    if a < b { SqLess(a, b); }
  }

  /** Rectangle intersection is a symmetric relation. */
  lemma IntersectsWithSymmetric(a: Rect, b: Rect)
    ensures IntersectsWith(a, b) <==> IntersectsWith(b, a)
  {
  }

  /** Closed point membership. */
  predicate Contains(r: Rect, p: Point)
  {
    r.x <= p.x <= Right(r) && r.y <= p.y <= Bottom(r)
  }
}

=== FILE: manager.dfy ===
/** The game manager's services: collision tests, scoring, and the
    generators that build explosions, rockets, meteors, UFOs, jets, shields
    and the city. Every draw of the random generator is an argument whose
    range the `requires` clause states. */
module Manager {
  import opened Common
  import opened Geometry
  import opened Shields
  import opened Buildings
  import opened Explosions
  import opened Catalog
  import opened Units
  import opened Worlds

  // ===== collision =====

  /** The movable's rectangle for building tests: centred on its position. */
  function CentredRect(m: Movable): (r: Rect)
    ensures r.w == Width(m) && r.h == Height(m)
    ensures r.x + r.w / 2.0 == Position(m).x && r.y + r.h / 2.0 == Position(m).y
  {
    Rect(Position(m).x - Width(m) / 2.0, Position(m).y - Height(m) / 2.0, Width(m), Height(m))
  }

  /** A building's rectangle: anchored at its position, 100 by 100. */
  function BuildingRect(b: Building): Rect
  {
    Rect(b.position.x, b.position.y, Buildings.W, Buildings.H)
  }

  /** `Intersects(movable, building)`: the unit's centred box meets the
      building's box, that is, the centres are no further apart on each
      axis than half the two sizes together. */
  function HitsBuilding(m: Movable, b: Building): (r: bool)
    ensures r <==>
      && AbsR(Position(m).x - (b.position.x + Buildings.W / 2.0)) <= (Width(m) + Buildings.W) / 2.0
      && AbsR(Position(m).y - (b.position.y + Buildings.H / 2.0)) <= (Height(m) + Buildings.H) / 2.0
  {
    IntersectsWith(CentredRect(m), BuildingRect(b))
  }

  /** The first building, in list order, that the movable touches. */
  function FirstBuildingHit(m: Movable, bs: seq<Building>): (r: Option<nat>)
    ensures r.Some? ==> r.value < |bs| && HitsBuilding(m, bs[r.value])
    ensures r.Some? ==> forall j :: 0 <= j < r.value ==> !HitsBuilding(m, bs[j])
    ensures r.None? <==> forall j :: 0 <= j < |bs| ==> !HitsBuilding(m, bs[j])
    decreases |bs|
  {
    if bs == [] then None
    else if HitsBuilding(m, bs[0]) then Some(0)
    else match FirstBuildingHit(m, bs[1..])
      case None => None
      case Some(k) => Some(k + 1)
  }

  /** `Intersects(movable, explosion)`: a rectangle of the movable's size
      anchored at its position (its corner, not its centre) against the
      explosion's circle. Every mention of the radius is a read that may
      widen a growing explosion: one read when the horizontal gap already
      rules a hit out, two reads to get past the vertical gap test, and two
      more for the corner test, whose square is the product of two
      successive reads. The answer comes with the explosion after the reads. */
  function HitsExplosion(m: Movable, e: Explosion): (res: (bool, Explosion))
    ensures res.1 == e.(radius := res.1.radius)
    ensures e.radius <= res.1.radius <= e.radius + 4
    ensures e.radius <= e.maxRadius ==> res.1.radius <= e.maxRadius
    ensures e.radius >= e.maxRadius ==> res.1 == e
  {
    var halfW, halfH := Width(m) / 2.0, Height(m) / 2.0;
    var cdx := AbsR(e.position.x - Position(m).x);
    var cdy := AbsR(e.position.y - Position(m).y);
    var (r1, e1) := ReadRadius(e);
    if cdx > halfW + r1 as real then (false, e1)
    else
      var (r2, e2) := ReadRadius(e1);
      if cdy > halfH + r2 as real then (false, e2)
      else if cdx <= halfW then (true, e2)
      else if cdy <= halfH then (true, e2)
      else
        var (r3, e3) := ReadRadius(e2);
        var (r4, e4) := ReadRadius(e3);
        (Sq(cdx - halfW) + Sq(cdy - halfH) <= r3 as real * r4 as real, e4)
  }

  /** How far `d` sticks out beyond a half-extent `half`, or 0 when inside. */
  function Excess(d: real, half: real): (x: real)
    ensures x >= 0.0
    ensures d <= half ==> x == 0.0
    ensures d > half ==> x + half == d
  {
    if d <= half then 0.0 else d - half
  }

  /** Reference meaning of the explosion test: the circle's centre, folded
      into the positive quadrant, lies within distance `r` of the box of
      half-extents `halfW` by `halfH`. */
  predicate WithinReach(cdx: real, cdy: real, halfW: real, halfH: real, r: real)
  {
    Sq(Excess(cdx, halfW)) + Sq(Excess(cdy, halfH)) <= Sq(r)
  }

  /** `GameManager.Intersects`'s sequence of tests with one fixed radius `r`. */
  predicate Cascade(cdx: real, cdy: real, halfW: real, halfH: real, r: real)
  {
    if cdx > halfW + r then false
    else if cdy > halfH + r then false
    else if cdx <= halfW then true
    else if cdy <= halfH then true
    else Sq(cdx - halfW) + Sq(cdy - halfH) <= Sq(r)
  }

  /** With a fixed non-negative radius the sequence of tests decides exactly
      whether the circle reaches the box: the two early rejections and the
      two early acceptances are shortcuts of the corner test. */
  lemma CascadeMeaning(cdx: real, cdy: real, halfW: real, halfH: real, r: real)
    requires r >= 0.0
    ensures Cascade(cdx, cdy, halfW, halfH, r) <==> WithinReach(cdx, cdy, halfW, halfH, r)
  {
    var ex, ey := Excess(cdx, halfW), Excess(cdy, halfH);
    SqNonNegative(ex);
    SqNonNegative(ey);
    if cdx > halfW + r {
      SqLess(r, ex);
    } else if cdy > halfH + r {
      SqLess(r, ey);
    } else if cdx <= halfW {
      SqLessEq(ey, r);
    } else if cdy <= halfH {
      SqLessEq(ex, r);
    }
  }

  /** For an explosion that has stopped growing, the test is the geometric
      one: it holds exactly when the circle reaches the movable's box, and
      the explosion is not changed by the reads. */
  lemma HitsExplosionSettled(m: Movable, e: Explosion)
    requires e.radius >= e.maxRadius && e.radius >= 0
    ensures HitsExplosion(m, e).1 == e
    ensures HitsExplosion(m, e).0 <==>
      WithinReach(AbsR(e.position.x - Position(m).x), AbsR(e.position.y - Position(m).y),
                  Width(m) / 2.0, Height(m) / 2.0, e.radius as real)
  {
    var cdx := AbsR(e.position.x - Position(m).x);
    var cdy := AbsR(e.position.y - Position(m).y);
    var r := e.radius as real;
    assert HitsExplosion(m, e).0 == Cascade(cdx, cdy, Width(m) / 2.0, Height(m) / 2.0, r);
    CascadeMeaning(cdx, cdy, Width(m) / 2.0, Height(m) / 2.0, r);
  }

  // ===== scoring =====

  /** `Score(amount)`: add to the score, and grant ten rockets whenever the
      new score is a multiple of ten, whichever way the score moved. */
  function Score(w: World, amount: int): (w': World)
    ensures w'.score == w.score + amount
    ensures w'.remainingRockets - w.remainingRockets == (if (w.score + amount) % 10 == 0 then 10 else 0)
    ensures w' == w.(score := w'.score, remainingRockets := w'.remainingRockets)
    ensures Evolves(w, w')
  {
    EvolvesRefl(w);
    var s := w.score + amount;
    w.(score := s, remainingRockets := if s % 10 == 0 then w.remainingRockets + 10 else w.remainingRockets)
  }

  /** `n` kills in a row, each scoring one point. */
  function ScoreTimes(w: World, n: nat): World
    decreases n
  {
    if n == 0 then w else ScoreTimes(Score(w, 1), n - 1)
  }

  /** Ten rockets per multiple of ten passed: after `n` single points from
      score `s`, the bonus paid is ten times the number of multiples of ten
      in `(s, s + n]`. */
  lemma {:induction false} ScoreTimesBonus(w: World, n: nat)
    ensures ScoreTimes(w, n).score == w.score + n
    ensures ScoreTimes(w, n).remainingRockets == w.remainingRockets + 10 * ((w.score + n) / 10 - w.score / 10)
    decreases n
  {
    if n > 0 {
      var w1 := Score(w, 1);
      ScoreTimesBonus(w1, n - 1);
      var s := w.score;
      assert (s + 1) % 10 == 0 ==> (s + 1) / 10 == s / 10 + 1;
      assert (s + 1) % 10 != 0 ==> (s + 1) / 10 == s / 10;
    }
  }

  /** Spending can pay a bonus: paying 25 from a score of 35 lands on 10 and
      grants ten rockets. */
  lemma SpendingGrantsBonus(w: World)
    requires w.score == 35
    ensures Score(w, -25).remainingRockets == w.remainingRockets + 10
  {
  }

  // ===== explosions =====

  /** Time to live of an ordinary, growing explosion. */
  const BlastTtl: int := 80

  /** Pull a blast centre back inside `[0, limit]` along one axis: an overflow
      past 0 puts the centre at `r + 2`, one past `limit` at `limit - r + 2`. */
  function ClampCoord(c: real, r: int, limit: real): (c': real)
    ensures c - r as real < 0.0 ==> c' == r as real + 2.0
    ensures c - r as real >= 0.0 && c + r as real > limit ==> c' == limit - r as real + 2.0
    ensures c - r as real >= 0.0 && c + r as real <= limit ==> c' == c
  {
    if c - r as real < 0.0 then c + AbsR(c - r as real - 2.0)
    else if c + r as real > limit then c - (c + r as real - limit - 2.0)
    else c
  }

  /** The low-side correction keeps the circle inside, but the high-side one
      leaves it two units past the edge. */
  lemma ClampEdges(c: real, r: int, limit: real)
    requires r >= 0
    ensures c - r as real < 0.0 ==> ClampCoord(c, r, limit) - r as real == 2.0
    ensures c - r as real >= 0.0 && c + r as real > limit ==> ClampCoord(c, r, limit) + r as real == limit + 2.0
  {
  }

  /** `GenerateExplosion`: always queue a new explosion under a fresh id. A
      radius wider than the canvas is a nuclear blast: instant, full size,
      left where it is. Any other blast grows for 80 ticks, its centre pulled
      back from the canvas edges. */
  function GenerateExplosion(w: World, coords: Point, radius: int, damage: int): (w': World)
    ensures w' == w.(explosionQueue := w'.explosionQueue, nextId := w.nextId + 1)
    ensures |w'.explosionQueue| == |w.explosionQueue| + 1
    ensures w'.explosionQueue[..|w.explosionQueue|] == w.explosionQueue
    ensures var e := w'.explosionQueue[|w.explosionQueue|];
      && e.id == w.nextId && e.damage == damage
      && (radius as real > w.cw ==>
            e.ttl == InstantTtl && e.position == coords && e.radius == radius && e.maxRadius == 0)
      && (radius as real <= w.cw ==>
            e.ttl == BlastTtl && e.radius == 1 && e.maxRadius == radius
            && e.position == Point(ClampCoord(coords.x, radius, w.cw), ClampCoord(coords.y, radius, w.ch)))
    ensures Evolves(w, w')
  {
    var e := if radius as real > w.cw then NewExplosion(w.nextId, coords, radius, damage, InstantTtl)
      else NewExplosion(w.nextId, Point(ClampCoord(coords.x, radius, w.cw), ClampCoord(coords.y, radius, w.ch)),
                        radius, damage, BlastTtl);
    var w' := w.(explosionQueue := w.explosionQueue + [e], nextId := w.nextId + 1);
    assert w'.explosionQueue[|w.explosionQueue|..] == [e];
    assert w'.explosionQueue[..|w.explosionQueue|] == w.explosionQueue;
    w'
  }

  // ===== engines and rockets =====

  /** The engine of an enemy unit: a copy of a catalog engine picked by
      `engineIdx`, slowed to 0.3 of its speed, and with a one-in-ten chance
      (`rateRoll < 10`) of acceleration rate 2. */
  function GenerateEnemyEngine(w: World, engineIdx: int, rateRoll: int): (e: Engine)
    requires 0 <= engineIdx < |w.engines| && NextIn(rateRoll, 0, 100)
    ensures e.name == w.engines[engineIdx].name && e.tier == w.engines[engineIdx].tier
    ensures e.speed == w.engines[engineIdx].speed * 0.3
    ensures rateRoll < 10 ==> e.speedRate == 2.0
    ensures rateRoll >= 10 ==> e.speedRate == w.engines[engineIdx].speedRate
  {
    var c := Clone(w.engines[engineIdx]);
    var slowed := SetSpeed(c, c.speed * 0.3);
    if rateRoll < 10 then SetSpeedRate(slowed, 2.0) else slowed
  }

  /** The draws behind one enemy rocket, in the order
      `GameManager.GenerateRocket` makes them, and the numerics standing for
      a division by zero. */
  datatype RocketDraws = RocketDraws(engineIdx: int, rateRoll: int, warheadIdx: int, startX: int, targetX: int,
                                     undefinedFlight: Ballistics)

  /** The draws are values the generator can return; the start column is
      drawn only when no launch point is given. */
  predicate ValidRocketDraws(w: World, click: Point, d: RocketDraws)
  {
    && 0 <= d.engineIdx < |w.engines|
    && NextIn(d.rateRoll, 0, 100)
    && 0 <= d.warheadIdx < |w.warheads|
    && (click == Point(0.0, 0.0) ==> NextIn(d.startX, 1, RoundHalfEven(w.cw - 1.0)))
    && NextIn(d.targetX, 1, RoundHalfEven(w.cw - 30.0))
  }

  /** Height at which enemy rockets are aimed: `ch - 30` rounded, where a
      rocket's box meets the bottom edge. */
  function EnemyTargetY(w: World): real
  {
    RoundHalfEven(w.ch - 30.0) as real
  }

  /** `GenerateRocket(false, clickX, clickY)`: an enemy rocket aimed at a
      random column at `EnemyTargetY`. Without a launch point (both
      coordinates 0) it starts at a random point at height 15 and is only
      returned; with one it starts there and is also queued for the next
      tick. */
  function GenerateEnemyRocket(w: World, click: Point, d: RocketDraws): (res: (Rocket, World))
    requires ValidRocketDraws(w, click, d)
    ensures var r := res.0;
      && !r.isFriendly && !r.isDestroyed
      && r.warhead == w.warheads[d.warheadIdx]
      && r.engine == GenerateEnemyEngine(w, d.engineIdx, d.rateRoll)
      && r.target == Point(d.targetX as real, EnemyTargetY(w))
      && (click == Point(0.0, 0.0) ==> r.start == Point(d.startX as real, 15.0) && res.1 == w)
      && (click != Point(0.0, 0.0) ==> r.start == click && res.1 == w.(rocketQueue := w.rocketQueue + [r]))
    ensures res.0.position == res.0.start
    ensures Ballistics(res.0.velocity, res.0.thrust) ==
      Aim(res.0.engine, res.0.start, res.0.target.x, res.0.target.y, d.undefinedFlight)
    ensures Evolves(w, res.1)
  {
    EvolvesRefl(w);
    var e := GenerateEnemyEngine(w, d.engineIdx, d.rateRoll);
    var h := w.warheads[d.warheadIdx];
    var start := if click.x == 0.0 && click.y == 0.0 then Point(d.startX as real, 15.0) else click;
    var r := NewRocket(e, h, start, d.targetX as real, EnemyTargetY(w), false, d.undefinedFlight);
    if click.x != 0.0 || click.y != 0.0 then
      var w' := w.(rocketQueue := w.rocketQueue + [r]);
      assert w'.explosionQueue[|w.explosionQueue|..] == [];
      (r, w')
    else (r, w)
  }

  /** `GenerateRocket(true, clickX, clickY)`: the player's rocket, with a copy
      of the selected engine and the selected warhead, launched from the
      bottom centre of the canvas (height `ch - 15`) towards the click. It is not queued. */
  function GenerateFriendlyRocket(w: World, clickX: real, clickY: real, undefinedFlight: Ballistics): (r: Rocket)
    requires w.selectedEngine.Some? && w.selectedWarhead.Some?
    ensures r.isFriendly && !r.isDestroyed
    ensures r.engine == w.selectedEngine.value && r.warhead == w.selectedWarhead.value
    ensures r.start == Point(w.cw / 2.0, w.ch - 15.0) && r.position == r.start
    ensures r.target == Point(clickX, clickY)
    ensures Ballistics(r.velocity, r.thrust) == Aim(r.engine, r.start, clickX, clickY, undefinedFlight)
  {
    NewRocket(Clone(w.selectedEngine.value), w.selectedWarhead.value, Point(w.cw / 2.0, w.ch - 15.0),
              clickX, clickY, true, undefinedFlight)
  }

  // ===== meteors, UFOs, jets =====

  /** `GenerateMeteor`: from a random column at height 1 down to the ground
      line, with 2 hit points when ultra-solid and 1 otherwise. */
  function GenerateMeteor(w: World, ultraSolid: bool, xDraw: int): (m: Meteor)
    requires NextIn(xDraw, 1, RoundHalfEven(w.cw - 30.0))
    ensures m.position == m.start == Point(xDraw as real, 1.0)
    ensures m.target == Point(xDraw as real, w.ch - 30.0)
    ensures m.curHP == m.maxHP == (if ultraSolid then 2 else 1)
    ensures m.alreadyHit == []
  {
    NewMeteor(Point(xDraw as real, 1.0), w.ch - 30.0, if ultraSolid then 2 else 1)
  }

  /** The draws behind a patrol: which side it enters from, its height, and
      its engine. */
  datatype PatrolDraws = PatrolDraws(side: int, y: int, engineIdx: int, rateRoll: int)

  predicate ValidPatrolDraws(w: World, d: PatrolDraws)
  {
    && NextIn(d.side, 0, 2)
    && NextIn(d.y, 1, RoundHalfEven(w.ch * 0.2))
    && 0 <= d.engineIdx < |w.engines|
    && NextIn(d.rateRoll, 0, 100)
  }

  /** The patrol's start and end columns: from 1 to the far edge, or the
      other way round when the side draw is 1. */
  function PatrolStartX(w: World, d: PatrolDraws): real
  {
    if d.side == 1 then RoundHalfEven(w.cw - 2.0) as real else 1.0
  }

  function PatrolTargetX(w: World, d: PatrolDraws): real
  {
    if d.side == 1 then 2.0 else RoundHalfEven(w.cw - 2.0) as real
  }

  /** `GenerateUfo`: 2 or 3 hit points, a horizontal patrol across the
      canvas in the top fifth, and an enemy engine. */
  function GenerateUfo(w: World, hpDraw: int, d: PatrolDraws): (u: Ufo)
    requires NextIn(hpDraw, 2, 4) && ValidPatrolDraws(w, d)
    ensures u.curHP == hpDraw && 2 <= u.curHP <= 3 && u.alreadyHit == []
    ensures u.position == u.start == Point(PatrolStartX(w, d), d.y as real)
    ensures u.target == Point(PatrolTargetX(w, d), d.y as real)
    ensures u.engine == GenerateEnemyEngine(w, d.engineIdx, d.rateRoll)
  {
    NewUfo(Point(PatrolStartX(w, d), d.y as real), PatrolTargetX(w, d), hpDraw,
           GenerateEnemyEngine(w, d.engineIdx, d.rateRoll))
  }

  /** `GenerateJet`: the same patrol, with 2 to 4 rockets on board. */
  function GenerateJet(w: World, d: PatrolDraws, rocketDraw: int): (j: Jet)
    requires ValidPatrolDraws(w, d) && NextIn(rocketDraw, 2, 5)
    ensures !j.isDestroyed && 2 <= j.rocketNum <= 4
    ensures j.position == j.start == Point(PatrolStartX(w, d), d.y as real)
    ensures j.target == Point(PatrolTargetX(w, d), d.y as real)
    ensures j.engine == GenerateEnemyEngine(w, d.engineIdx, d.rateRoll)
  {
    NewJet(Point(PatrolStartX(w, d), d.y as real), PatrolTargetX(w, d),
           GenerateEnemyEngine(w, d.engineIdx, d.rateRoll), rocketDraw)
  }

  /** `GenerateShield`: a full shield at the current research level. */
  function GenerateShield(w: World): (s: Shield)
    ensures s.maxHP == w.shieldResearch && s.curHP == w.shieldResearch
  {
    NewShield(w.shieldResearch)
  }

  // ===== the city =====

  /** The placement test between a candidate column `x` and a placed
      building's column `bx`: neither lies strictly inside the other's
      hundred-wide footprint. */
  predicate Separated(bx: real, x: real)
  {
    !(x > bx && x < bx + Buildings.W) && !(bx > x && bx < x + Buildings.W)
  }

  /** The test accepts columns at least a building apart, and also a column
      exactly equal to a placed one, which then shares its footprint. */
  lemma SeparatedMeaning(bx: real, x: real)
    ensures Separated(bx, x) <==> x == bx || AbsR(x - bx) >= Buildings.W
  {
  }

  /** A candidate column is accepted when it is separated from every
      building placed so far. */
  predicate Clear(placed: seq<Building>, x: real)
  {
    forall j :: 0 <= j < |placed| ==> Separated(placed[j].position.x, x)
  }

  /** Every pair of placed buildings is separated. */
  predicate PairwiseSeparated(bs: seq<Building>)
  {
    forall i, j :: 0 <= i < j < |bs| ==> Separated(bs[i].position.x, bs[j].position.x)
  }

  /** Shape of a generated building: at height `ch - 100`, standing on the
      bottom edge, full, 3 to 5 hit points, no shield. */
  predicate Generated(w: World, b: Building)
  {
    3 <= b.maxHP <= 5 && b.curHP == b.maxHP && b.shield == None
    && b.position.y == w.ch - Buildings.H
  }

  /** Rejection sampling: consume column draws `xs` until `n` buildings are
      placed, the i-th getting hit points `hps[i]`. `None` when the draws run
      out first, which stands for a sampling loop that has not finished. */
  function PlaceFrom(w: World, n: nat, xs: seq<int>, hps: seq<int>, placed: seq<Building>): (r: Option<seq<Building>>)
    requires |placed| <= n == |hps|
    requires forall i :: 0 <= i < |hps| ==> NextIn(hps[i], 3, 6)
    requires PairwiseSeparated(placed)
    requires forall i :: 0 <= i < |placed| ==> Generated(w, placed[i]) && placed[i].maxHP == hps[i]
    ensures r.Some? ==> |r.value| == n && r.value[..|placed|] == placed
    ensures r.Some? ==> PairwiseSeparated(r.value)
    ensures r.Some? ==> forall i :: 0 <= i < n ==> Generated(w, r.value[i]) && r.value[i].maxHP == hps[i]
    decreases |xs|
  {
    if |placed| == n then Some(placed)
    else if xs == [] then None
    else if Clear(placed, xs[0] as real) then
      var b := NewBuilding(hps[|placed|], Point(xs[0] as real, w.ch - Buildings.H));
      assert (placed + [b])[..|placed|] == placed;
      var r := PlaceFrom(w, n, xs[1..], hps, placed + [b]);
      assert r.Some? ==> r.value[..|placed|] == (r.value[..|placed| + 1])[..|placed|];
      r
    else PlaceFrom(w, n, xs[1..], hps, placed)
  }

  /** `GenerateBuildings(n)`. */
  function GenerateBuildings(w: World, n: nat, xs: seq<int>, hps: seq<int>): (r: Option<seq<Building>>)
    requires |hps| == n
    requires forall i :: 0 <= i < n ==> NextIn(hps[i], 3, 6)
    requires forall i :: 0 <= i < |xs| ==> NextIn(xs[i], 1, RoundHalfEven(w.cw - Buildings.W))
    ensures r.Some? ==> |r.value| == n && PairwiseSeparated(r.value)
    ensures r.Some? ==> forall i :: 0 <= i < n ==> Generated(w, r.value[i]) && r.value[i].maxHP == hps[i]
    ensures r.Some? ==> forall i :: 0 <= i < n ==> exists j :: 0 <= j < |xs| && r.value[i].position.x == xs[j] as real
  {
    PlaceFromColumns(w, n, xs, hps, []);
    PlaceFrom(w, n, xs, hps, [])
  }

  /** Every building the sampling places stands on a column that was drawn. */
  lemma {:induction false} PlaceFromColumns(w: World, n: nat, xs: seq<int>, hps: seq<int>, placed: seq<Building>)
    requires |placed| <= n == |hps|
    requires forall i :: 0 <= i < |hps| ==> NextIn(hps[i], 3, 6)
    requires PairwiseSeparated(placed)
    requires forall i :: 0 <= i < |placed| ==> Generated(w, placed[i]) && placed[i].maxHP == hps[i]
    ensures var r := PlaceFrom(w, n, xs, hps, placed);
      r.Some? ==> forall i :: |placed| <= i < n ==> exists j :: 0 <= j < |xs| && r.value[i].position.x == xs[j] as real
    decreases |xs|
  {
    var r := PlaceFrom(w, n, xs, hps, placed);
    if |placed| < n && xs != [] && r.Some? {
      if Clear(placed, xs[0] as real) {
        var b := NewBuilding(hps[|placed|], Point(xs[0] as real, w.ch - Buildings.H));
        PlaceFromColumns(w, n, xs[1..], hps, placed + [b]);
        assert r == PlaceFrom(w, n, xs[1..], hps, placed + [b]);
        assert r.value[..|placed| + 1] == placed + [b];
        forall i | |placed| <= i < n
          ensures exists j :: 0 <= j < |xs| && r.value[i].position.x == xs[j] as real
        {
          if i == |placed| {
            assert r.value[i] == (r.value[..|placed| + 1])[i] == b;
            assert r.value[i].position.x == xs[0] as real;
          } else {
            var j :| 0 <= j < |xs[1..]| && r.value[i].position.x == xs[1..][j] as real;
            assert r.value[i].position.x == xs[j + 1] as real;
          }
        }
      } else {
        PlaceFromColumns(w, n, xs[1..], hps, placed);
        assert r == PlaceFrom(w, n, xs[1..], hps, placed);
        forall i | |placed| <= i < n
          ensures exists j :: 0 <= j < |xs| && r.value[i].position.x == xs[j] as real
        {
          var j :| 0 <= j < |xs[1..]| && r.value[i].position.x == xs[1..][j] as real;
          assert r.value[i].position.x == xs[j + 1] as real;
        }
      }
    }
  }

  /** Draws that are already pairwise clear are all accepted: the first `n`
      of them become the city's columns, in order. */
  lemma {:induction false} PlaceClearDraws(w: World, n: nat, xs: seq<int>, hps: seq<int>, placed: seq<Building>)
    requires |placed| <= n == |hps| && n <= |xs|
    requires forall i :: 0 <= i < |hps| ==> NextIn(hps[i], 3, 6)
    requires PairwiseSeparated(placed)
    requires forall i :: 0 <= i < |placed| ==> Generated(w, placed[i]) && placed[i].maxHP == hps[i]
    requires forall i :: 0 <= i < |placed| ==> placed[i].position.x == xs[i] as real
    requires forall i, j :: 0 <= i < j < n ==> Separated(xs[i] as real, xs[j] as real)
    ensures PlaceFrom(w, n, xs[|placed|..], hps, placed).Some?
    ensures forall i :: 0 <= i < n ==> PlaceFrom(w, n, xs[|placed|..], hps, placed).value[i].position.x == xs[i] as real
    decreases n - |placed|
  {
    var k := |placed|;
    if k < n {
      var x := xs[k] as real;
      assert xs[k..][0] == xs[k] && xs[k..][1..] == xs[k + 1..];
      assert Clear(placed, x);
      var b := NewBuilding(hps[k], Point(x, w.ch - Buildings.H));
      PlaceClearDraws(w, n, xs, hps, placed + [b]);
      assert PlaceFrom(w, n, xs[k..], hps, placed) == PlaceFrom(w, n, xs[k + 1..], hps, placed + [b]);
    }
  }

  /** `GenerateBuildings` on draws whose first `n` are pairwise clear places
      a building on each of those columns, in draw order. */
  lemma GenerateClearDraws(w: World, n: nat, xs: seq<int>, hps: seq<int>)
    requires |hps| == n && n <= |xs|
    requires forall i :: 0 <= i < n ==> NextIn(hps[i], 3, 6)
    requires forall i :: 0 <= i < |xs| ==> NextIn(xs[i], 1, RoundHalfEven(w.cw - Buildings.W))
    requires forall i, j :: 0 <= i < j < n ==> Separated(xs[i] as real, xs[j] as real)
    ensures GenerateBuildings(w, n, xs, hps).Some?
    ensures forall i :: 0 <= i < n ==> GenerateBuildings(w, n, xs, hps).value[i].position.x == xs[i] as real
  {
    PlaceClearDraws(w, n, xs, hps, []);
    assert xs[0..] == xs;
  }

  /** Two draws of the same column both pass the test: the generated city
      can hold two buildings on exactly the same footprint. */
  lemma SameColumnTwice(w: World)
    requires w.cw == 500.0
    ensures GenerateBuildings(w, 2, [50, 50], [3, 4]).Some?
    ensures var bs := GenerateBuildings(w, 2, [50, 50], [3, 4]).value;
      bs[0].position == bs[1].position
  {
    var b0 := NewBuilding(3, Point(50.0, w.ch - Buildings.H));
    var b1 := NewBuilding(4, Point(50.0, w.ch - Buildings.H));
    assert Clear([], 50.0) && Clear([b0], 50.0);
    assert [b0] + [b1] == [b0, b1] && [50, 50][1..] == [50] && [50][1..] == [];
    assert PlaceFrom(w, 2, [], [3, 4], [b0, b1]) == Some([b0, b1]);
    assert PlaceFrom(w, 2, [50], [3, 4], [b0]) == Some([b0, b1]);
  }
}

=== FILE: motion.dfy ===
/** One move of each kind of unit, and the explosions it sets off. A move
    answers whether the unit is still in play, and returns the unit and the
    world after it: buildings hit, points scored, explosions and rockets
    queued. */
module Motion {
  import opened Common
  import opened Geometry
  import opened Buildings
  import opened Explosions
  import opened Catalog
  import opened Units
  import opened Worlds
  import opened Manager

  /** The arrival test every kind uses: the unit is at least as far from its
      start as its target is. */
  predicate Arrived(position: Point, start: Point, target: Point)
  {
    DistSq(position, start) >= DistSq(target, start)
  }

  // ===== damage to buildings =====

  /** Building `i` takes a hit; nothing else changes. */
  function HitBuilding(w: World, i: nat, damage: int): (w': World)
    requires i < |w.buildings|
    ensures |w'.buildings| == |w.buildings|
    ensures w'.buildings[i] == Buildings.Hit(w.buildings[i], damage)
    ensures forall j :: 0 <= j < |w.buildings| && j != i ==> w'.buildings[j] == w.buildings[j]
    ensures w' == w.(buildings := w'.buildings)
    ensures Evolves(w, w')
  {
    var w' := w.(buildings := w.buildings[i := Buildings.Hit(w.buildings[i], damage)]);
    assert w'.explosionQueue[|w.explosionQueue|..] == [];
    w'
  }

  // ===== meteors =====

  /** `Meteor.Move`: a destroyed meteor leaves play; one touching a building
      deals that building one point and leaves play; one that has come as
      far as its target leaves play; otherwise it falls three units. */
  function MeteorMove(m: Meteor, w: World): (res: (bool, Meteor, World))
    ensures res.1 == m.(position := res.1.position)
    ensures res.0 <==> m.curHP > 0 && FirstBuildingHit(MeteorUnit(m), w.buildings).None?
                       && !Arrived(m.position, m.start, m.target)
    ensures res.0 ==> res.1.position == Point(m.position.x + MeteorDx, m.position.y + MeteorDy) && res.2 == w
    ensures m.curHP > 0 && FirstBuildingHit(MeteorUnit(m), w.buildings).Some? ==>
      res.2 == HitBuilding(w, FirstBuildingHit(MeteorUnit(m), w.buildings).value, 1)
    ensures res.2 == w.(buildings := res.2.buildings)
    ensures Evolves(w, res.2)
  {
    EvolvesRefl(w);
    if m.curHP <= 0 then (false, m, w)
    else match FirstBuildingHit(MeteorUnit(m), w.buildings)
      case Some(i) => (false, m, HitBuilding(w, i, 1))
      case None =>
        if Arrived(m.position, m.start, m.target) then (false, m, w)
        else (true, m.(position := Point(m.position.x + MeteorDx, m.position.y + MeteorDy)), w)
  }

  /** A meteor dropped straight down over open ground (no buildings) keeps
      falling three units per move exactly while it is short of its target:
      at `j` moves from its start the move succeeds iff `3j` is less than the
      drop. */
  lemma MeteorFallStep(m: Meteor, w: World, j: nat)
    requires w.buildings == [] && m.curHP > 0
    requires m.target.x == m.start.x && m.target.y >= m.start.y
    requires m.position == Point(m.start.x, m.start.y + 3.0 * j as real)
    ensures MeteorMove(m, w).0 <==> 3.0 * j as real < m.target.y - m.start.y
    ensures MeteorMove(m, w).0 ==> MeteorMove(m, w).1.position == Point(m.start.x, m.start.y + 3.0 * (j + 1) as real)
  {
    var fall, drop := 3.0 * j as real, m.target.y - m.start.y;
    SqZero(m.start.x - m.start.x);
    assert DistSq(m.position, m.start) == Sq(fall);
    assert DistSq(m.target, m.start) == Sq(drop);
    if fall < drop {
      SqLess(fall, drop);
    } else {
      SqLessEq(drop, fall);
    }
  }

  // ===== UFOs and jets =====

  /** The horizontal step of UFOs and jets: a leftward step that would pass
      the target stops on it; any other step is taken in full. */
  function StepX(x: real, targetX: real, dx: real): (x': real)
    ensures x > targetX ==> x' >= targetX
    ensures x > targetX && x + dx < targetX ==> x' == targetX
    ensures x > targetX && x + dx >= targetX ==> x' == x + dx
    ensures x <= targetX ==> x' == x + dx
  {
    if x > targetX && x + dx < targetX then targetX else x + dx
  }

  /** Where a destroyed UFO or jet sets off its blast: the centre of its box. */
  function WreckCentre(m: Movable): Point
  {
    Point(Position(m).x + Width(m) / 2.0, Position(m).y + Height(m) / 2.0)
  }

  /** The blast of a downed UFO or jet: radius 50, damage 1, and a point. */
  function Wreck(m: Movable, w: World): (w': World)
    ensures w'.score == w.score + 1
    ensures w'.explosionQueue == GenerateExplosion(w, WreckCentre(m), 50, 1).explosionQueue
    ensures w'.remainingRockets == Score(w, 1).remainingRockets
    ensures w' == w.(score := w'.score, remainingRockets := w'.remainingRockets,
                     explosionQueue := w'.explosionQueue, nextId := w.nextId + 1)
    ensures Evolves(w, w')
  {
    var w1 := GenerateExplosion(w, WreckCentre(m), 50, 1);
    var w2 := Score(w1, 1);
    EvolvesTrans(w, w1, w2);
    w2
  }

  /** `Ufo.Move`: a destroyed UFO blows up, scores and leaves play; a live one
      accelerates, then leaves play if it has flown as far as its target or
      steps sideways otherwise. */
  function UfoMove(u: Ufo, w: World): (res: (bool, Ufo, World))
    ensures u.curHP <= 0 ==> !res.0 && res.1 == u && res.2 == Wreck(UfoUnit(u), w)
    ensures u.curHP > 0 ==> res.2 == w && res.1.curHP == u.curHP
    ensures u.curHP > 0 ==> res.1.dx == UfoChangeSpeed(u).dx
    ensures res.0 <==> u.curHP > 0 && !Arrived(u.position, u.start, u.target)
    ensures res.0 ==> res.1.position == Point(StepX(u.position.x, u.target.x, res.1.dx), u.position.y)
    ensures !res.0 ==> res.1.position == u.position
    ensures res.1.start == u.start && res.1.target == u.target && res.1.alreadyHit == u.alreadyHit
    ensures Evolves(w, res.2)
  {
    EvolvesRefl(w);
    if u.curHP <= 0 then (false, u, Wreck(UfoUnit(u), w))
    else
      var u1 := UfoChangeSpeed(u);
      if Arrived(u1.position, u1.start, u1.target) then (false, u1, w)
      else (true, u1.(position := Point(StepX(u1.position.x, u1.target.x, u1.dx), u1.position.y)), w)
  }

  /** `n` successive moves of one UFO, each in the world the previous move
      left; the flight ends early at the first move that takes it out of
      play. */
  function UfoFlight(u: Ufo, w: World, n: nat): (res: (Ufo, World))
    decreases n
  {
    if n == 0 then (u, w)
    else
      var (go, u1, w1) := UfoMove(u, w);
      if go then UfoFlight(u1, w1, n - 1) else (u1, w1)
  }

  /** A UFO patrolling leftward on its target's line never passes its
      target column and never changes height, however many moves it makes:
      the clamp in its step and the arrival test keep it on course. */
  lemma {:induction false} UfoFlightStaysOnCourse(u: Ufo, w: World, n: nat)
    requires u.target.x <= u.position.x && u.position.y == u.target.y
    ensures var v := UfoFlight(u, w, n).0;
      v.target == u.target && v.target.x <= v.position.x && v.position.y == u.position.y
    decreases n
  {
    if n > 0 {
      var (go, u1, w1) := UfoMove(u, w);
      if go {
        assert !Arrived(u.position, u.start, u.target);
        assert u.position != u.target;
        UfoFlightStaysOnCourse(u1, w1, n - 1);
      }
    }
  }

  /** A jet's random turn: the launch roll and, should it launch, the draws
      of the rocket. */
  datatype JetTurn = JetTurn(fireRoll: int, draws: RocketDraws)

  /** A live jet after its speed change and its sideways step. */
  function JetStep(j: Jet): (j': Jet)
    ensures j' == j.(dx := j'.dx, position := j'.position)
    ensures j'.position.y == j.position.y
  {
    var j1 := JetChangeSpeed(j);
    j1.(position := Point(StepX(j1.position.x, j1.target.x, j1.dx), j1.position.y))
  }

  /** Where a jet launches from: a third of the way along it, half way down,
      with the class's integer width and height divided as integers, so the
      70-wide jet launches 23 to the right of its corner. */
  function LaunchPoint(j: Jet): (p: Point)
    ensures p == Point(j.position.x + 23.0, j.position.y + 20.0)
  {
    Point(j.position.x + (Width(JetUnit(j)).Floor / 3) as real, j.position.y + (Height(JetUnit(j)).Floor / 2) as real)
  }

  /** The jet launches this turn: it has rockets left and the roll is under
      20 in 900. */
  predicate Launches(j: Jet, t: JetTurn)
  {
    j.rocketNum > 0 && t.fireRoll < 20
  }

  /** The roll is drawn only while rockets are left, and the rocket draws
      only when a launch happens. */
  predicate ValidJetTurn(w: World, j: Jet, t: JetTurn)
  {
    (j.rocketNum > 0 ==> NextIn(t.fireRoll, 0, 900))
    && (Launches(j, t) ==> ValidRocketDraws(w, LaunchPoint(JetStep(j)), t.draws))
  }

  /** `Jet.Move`: like a UFO, and after a successful step the jet may launch
      one of its rockets, queued as an enemy rocket starting from the jet. */
  function JetMove(j: Jet, w: World, t: JetTurn): (res: (bool, Jet, World))
    requires ValidJetTurn(w, j, t)
    ensures j.isDestroyed ==> !res.0 && res.1 == j && res.2 == Wreck(JetUnit(j), w)
    ensures res.0 <==> !j.isDestroyed && !Arrived(j.position, j.start, j.target)
    ensures !j.isDestroyed ==> res.1.position.y == j.position.y && !res.1.isDestroyed
    ensures res.0 ==> res.1.position == JetStep(j).position
    ensures res.0 && Launches(j, t) ==>
      res.1.rocketNum == j.rocketNum - 1 &&
      res.2 == GenerateEnemyRocket(w, LaunchPoint(JetStep(j)), t.draws).1
    ensures !(res.0 && Launches(j, t)) ==> res.1.rocketNum == j.rocketNum && res.2.rocketQueue == w.rocketQueue
    ensures !j.isDestroyed && !(res.0 && Launches(j, t)) ==> res.2 == w
    ensures j.rocketNum >= 0 ==> res.1.rocketNum >= 0
    ensures res.1.start == j.start && res.1.target == j.target
    ensures Evolves(w, res.2)
  {
    EvolvesRefl(w);
    if j.isDestroyed then (false, j, Wreck(JetUnit(j), w))
    else
      var j1 := JetChangeSpeed(j);
      if Arrived(j1.position, j1.start, j1.target) then (false, j1, w)
      else
        var j2 := JetStep(j);
        if j2.rocketNum > 0 && t.fireRoll < 20 then
          var (_, w') := GenerateEnemyRocket(w, LaunchPoint(j2), t.draws);
          (true, j2.(rocketNum := j2.rocketNum - 1), w')
        else (true, j2, w)
  }

  /** Rockets are conserved: unless the launch point is the origin (where
      `Jet.Move` builds the rocket but queues nothing), every rocket a jet gives
      up is one more in the queue. */
  lemma JetLaunchConserves(j: Jet, w: World, t: JetTurn)
    requires ValidJetTurn(w, j, t)
    requires LaunchPoint(JetStep(j)) != Point(0.0, 0.0)
    ensures JetMove(j, w, t).1.rocketNum + |JetMove(j, w, t).2.rocketQueue| == j.rocketNum + |w.rocketQueue|
  {
    var res := JetMove(j, w, t);
    if j.isDestroyed {
      assert res.2.rocketQueue == w.rocketQueue;
    } else if res.0 && Launches(j, t) {
      assert LaunchPoint(JetStep(j)) != Point(0.0, 0.0);
    }
  }

  // ===== rockets =====

  /** `Rocket.Explode`: the building it struck, if any, takes the warhead's
      damage; then a blast of the warhead's radius and damage is queued at
      the rocket, except for an enemy nuclear warhead, which makes none. */
  function RocketExplode(r: Rocket, w: World, struck: Option<nat>): (w': World)
    requires struck.Some? ==> struck.value < |w.buildings|
    ensures |w'.buildings| == |w.buildings|
    ensures struck.Some? ==> w'.buildings == HitBuilding(w, struck.value, r.warhead.damage).buildings
    ensures struck.None? ==> w'.buildings == w.buildings
    ensures (r.warhead.tier == NuclearWarhead && !r.isFriendly) <==> w'.explosionQueue == w.explosionQueue
    ensures r.warhead.tier != NuclearWarhead || r.isFriendly ==>
      w'.explosionQueue == GenerateExplosion(w, r.position, r.warhead.radius, r.warhead.damage).explosionQueue
    ensures w'.score == w.score && w'.rocketQueue == w.rocketQueue
    ensures w'.nextId == (if r.warhead.tier == NuclearWarhead && !r.isFriendly then w.nextId else w.nextId + 1)
    ensures w' == w.(buildings := w'.buildings, explosionQueue := w'.explosionQueue, nextId := w'.nextId)
    ensures Evolves(w, w')
  {
    EvolvesRefl(w);
    var w1 := if struck.Some? then HitBuilding(w, struck.value, r.warhead.damage) else w;
    if r.warhead.tier != NuclearWarhead || r.isFriendly then
      var w2 := GenerateExplosion(w1, r.position, r.warhead.radius, r.warhead.damage);
      EvolvesTrans(w, w1, w2);
      w2
    else w1
  }

  /** The enemy nuclear strike: `Explode` with each building in turn, from
      index `k` on. */
  function ExplodeEach(r: Rocket, w: World, k: nat): (w': World)
    requires k <= |w.buildings|
    ensures |w'.buildings| == |w.buildings|
    ensures Evolves(w, w')
    decreases |w.buildings| - k
  {
    if k == |w.buildings| then EvolvesRefl(w); w
    else
      var w1 := RocketExplode(r, w, Some(k));
      var w2 := ExplodeEach(r, w1, k + 1);
      EvolvesTrans(w, w1, w2);
      w2
  }

  /** An enemy nuclear rocket strikes every building from `k` on with its
      damage and sets off no blast: the city takes the hit, the sky shows
      nothing. */
  lemma {:induction false} NuclearStrikeHitsAll(r: Rocket, w: World, k: nat)
    requires r.warhead.tier == NuclearWarhead && !r.isFriendly
    requires k <= |w.buildings|
    ensures forall i :: 0 <= i < k ==> ExplodeEach(r, w, k).buildings[i] == w.buildings[i]
    ensures forall i :: k <= i < |w.buildings| ==>
      ExplodeEach(r, w, k).buildings[i] == Buildings.Hit(w.buildings[i], r.warhead.damage)
    ensures ExplodeEach(r, w, k) == w.(buildings := ExplodeEach(r, w, k).buildings)
    decreases |w.buildings| - k
  {
    if k < |w.buildings| {
      var w1 := RocketExplode(r, w, Some(k));
      assert w1 == w.(buildings := w1.buildings);
      NuclearStrikeHitsAll(r, w1, k + 1);
    }
  }

  /** The rocket after one speed change: the thrust added to its velocity. */
  function Accelerated(r: Rocket): (r': Rocket)
    ensures r' == r.(velocity := r'.velocity)
    ensures r'.velocity == Point(r.velocity.x + r.thrust.x, r.velocity.y + r.thrust.y)
  {
    r.(velocity := Point(r.velocity.x + r.thrust.x, r.velocity.y + r.thrust.y))
  }

  /** The building an enemy rocket has run into, if any; friendly rockets
      pass over buildings. */
  function Impact(r: Rocket, w: World): (i: Option<nat>)
    ensures r.isFriendly ==> i.None?
    ensures !r.isFriendly ==> i == FirstBuildingHit(RocketUnit(r), w.buildings)
  {
    if r.isFriendly then None else FirstBuildingHit(RocketUnit(r), w.buildings)
  }

  /** `Rocket.Move`: a destroyed rocket explodes; an enemy rocket touching a
      building explodes on it (a nuclear one on every building); otherwise
      the rocket accelerates, and either has arrived (it is put on its target
      and explodes there) or flies one step. */
  function RocketMove(r: Rocket, w: World): (res: (bool, Rocket, World))
    ensures res.0 <==> !r.isDestroyed && Impact(r, w).None? && !Arrived(r.position, r.start, r.target)
    ensures r.isDestroyed ==> res.1 == r && res.2 == RocketExplode(r, w, None)
    ensures !r.isDestroyed && Impact(r, w).Some? && r.warhead.tier == NuclearWarhead ==>
      res.2 == ExplodeEach(r, w, 0)
    ensures !r.isDestroyed && Impact(r, w).Some? && r.warhead.tier != NuclearWarhead ==>
      res.2 == RocketExplode(r, w, Impact(r, w))
    ensures !r.isDestroyed && Impact(r, w).None? && Arrived(r.position, r.start, r.target) ==>
      res.1.position == r.target && res.2 == RocketExplode(res.1, w, None)
    ensures res.0 ==> res.2 == w
    ensures res.0 ==> res.1.velocity == Accelerated(r).velocity
    ensures res.0 ==> res.1.position == Point(r.position.x + res.1.velocity.x, r.position.y + res.1.velocity.y)
    ensures r.isFriendly ==> res.2.buildings == w.buildings
    ensures res.1.isFriendly == r.isFriendly && res.1.isDestroyed == r.isDestroyed
    ensures res.1.warhead == r.warhead && res.1.start == r.start && res.1.target == r.target
    ensures Evolves(w, res.2)
  {
    EvolvesRefl(w);
    if r.isDestroyed then (false, r, RocketExplode(r, w, None))
    else match Impact(r, w)
      case Some(i) =>
        if r.warhead.tier == NuclearWarhead then (false, r, ExplodeEach(r, w, 0))
        else (false, r, RocketExplode(r, w, Some(i)))
      case None =>
        var r1 := Accelerated(r);
        if Arrived(r1.position, r1.start, r1.target) then
          var r2 := r1.(position := r1.target);
          (false, r2, RocketExplode(r2, w, None))
        else
          (true, r1.(position := Point(r1.position.x + r1.velocity.x, r1.position.y + r1.velocity.y)), w)
  }

  // ===== dispatch =====

  /** `IMovable.Move` over the four kinds; only a jet uses the turn. */
  function Move(m: Movable, w: World, t: JetTurn): (res: (bool, Movable, World))
    requires m.JetUnit? ==> ValidJetTurn(w, m.jet, t)
    ensures res.1.RocketUnit? == m.RocketUnit? && res.1.MeteorUnit? == m.MeteorUnit?
    ensures res.1.UfoUnit? == m.UfoUnit? && res.1.JetUnit? == m.JetUnit?
    ensures res.0 ==> !IsDestroyed(m) && !IsDestroyed(res.1)
    ensures IsEnemyRocket(res.1) == IsEnemyRocket(m)
    ensures m.RocketUnit? ==> var r := RocketMove(m.rocket, w); res == (r.0, RocketUnit(r.1), r.2)
    ensures m.MeteorUnit? ==> var r := MeteorMove(m.meteor, w); res == (r.0, MeteorUnit(r.1), r.2)
    ensures m.UfoUnit? ==> var r := UfoMove(m.ufo, w); res == (r.0, UfoUnit(r.1), r.2)
    ensures m.JetUnit? ==> var r := JetMove(m.jet, w, t); res == (r.0, JetUnit(r.1), r.2)
    ensures Evolves(w, res.2)
  {
    match m
    case RocketUnit(r) => var (ok, r', w') := RocketMove(r, w); (ok, RocketUnit(r'), w')
    case MeteorUnit(me) => var (ok, me', w') := MeteorMove(me, w); (ok, MeteorUnit(me'), w')
    case UfoUnit(u) => var (ok, u', w') := UfoMove(u, w); (ok, UfoUnit(u'), w')
    case JetUnit(j) => var (ok, j', w') := JetMove(j, w, t); (ok, JetUnit(j'), w')
  }
}

=== FILE: shields.dfy ===
/** The shield a building may carry: it soaks up whole hits and never goes
    below zero hit points. */
module Shields {
  import opened Common

  /** `maxHP` is fixed at construction (it has no setter); `curHP` only
      changes through `SetCurHP`. */
  datatype Shield = Shield(maxHP: int, curHP: int)

  /** A fresh shield starts full. */
  function NewShield(maxHP: int): (s: Shield)
    ensures s.maxHP == maxHP
    ensures s.curHP == s.maxHP
  {
    Shield(maxHP, maxHP)
  }

  /** The `CurHP` setter: a negative value is silently ignored. */
  function SetCurHP(s: Shield, v: int): (s': Shield)
    ensures s'.maxHP == s.maxHP
    ensures v >= 0 ==> s'.curHP == v
    ensures v < 0 ==> s' == s
  {
    if v >= 0 then s.(curHP := v) else s
  }

  /** Damage the shield; whatever exceeds its hit points is lost. */
  function Hit(s: Shield, damage: int): (s': Shield)
    ensures s'.curHP == MaxI(s.curHP - damage, 0)
    ensures s'.maxHP == s.maxHP
  {
    if s.curHP - damage > 0 then SetCurHP(s, s.curHP - damage)
    else SetCurHP(s, 0)
  }

  /** No write through the setter makes a non-negative shield negative. */
  lemma SetCurHPKeepsNonNegative(s: Shield, v: int)
    requires s.curHP >= 0
    ensures SetCurHP(s, v).curHP >= 0
  {
  }

  /** Whatever the shield's state and the damage, a hit leaves it at zero or above. */
  lemma HitNeverNegative(s: Shield, damage: int)
    ensures Hit(s, damage).curHP >= 0
  {
  }

  /** A depleted shield stays depleted under any non-negative hit. */
  lemma HitDepletedStaysZero(s: Shield, damage: int)
    requires s.curHP == 0 && damage >= 0
    ensures Hit(s, damage) == s
  {
  }

  /** The documented example: a shield with 5 points hit for 8 is left at 0. */
  lemma HitOverflowExample()
    ensures Hit(NewShield(5), 8).curHP == 0
  {
  }
}

=== FILE: units.dfy ===
/** The four kinds of moving object, as one closed union: rockets, meteors,
    UFOs and jets. This module holds their state, their construction, their
    fixed sizes and their reaction to being caught in an explosion; moving
    them needs the director and lives in module Motion. */
module Units {
  import opened Common
  import opened Geometry
  import opened Catalog
  import opened Explosions

  /** Meteors fall straight down: three units per move, none sideways. */
  const MeteorDx: real := 0.0
  const MeteorDy: real := 3.0

  /** A meteor remembers the ids of the explosions that have already hurt it. */
  datatype Meteor = Meteor(position: Point, start: Point, target: Point, maxHP: int, curHP: int, alreadyHit: seq<nat>)

  /** A UFO patrols horizontally; `dx` is its current horizontal speed. */
  datatype Ufo = Ufo(position: Point, start: Point, target: Point, dx: real, curHP: int, alreadyHit: seq<nat>, engine: Engine)

  /** A jet patrols like a UFO, dies to a single hit and carries a few enemy
      rockets it may launch. */
  datatype Jet = Jet(position: Point, start: Point, target: Point, dx: real, isDestroyed: bool, rocketNum: int, engine: Engine)

  /** A rocket's flight numerics: its velocity and the constant amount each
      move's speed change adds to it. */
  datatype Ballistics = Ballistics(velocity: Point, thrust: Point)

  datatype Rocket = Rocket(position: Point, start: Point, target: Point, velocity: Point, thrust: Point,
                           isFriendly: bool, isDestroyed: bool, engine: Engine, warhead: Warhead)

  datatype Movable =
    | RocketUnit(rocket: Rocket)
    | MeteorUnit(meteor: Meteor)
    | UfoUnit(ufo: Ufo)
    | JetUnit(jet: Jet)

  /** Width and height of each kind, in place of the reflective lookup of
      the per-class `W` and `H` constants. */
  function Width(m: Movable): (w: real)
    ensures m.RocketUnit? || m.MeteorUnit? ==> w == 30.0
    ensures m.UfoUnit? || m.JetUnit? ==> w == 70.0
    ensures w > 0.0
  {
    match m
    case RocketUnit(_) => 30.0
    case MeteorUnit(_) => 30.0
    case UfoUnit(_) => 70.0
    case JetUnit(_) => 70.0
  }

  function Height(m: Movable): (h: real)
    ensures m.RocketUnit? || m.MeteorUnit? ==> h == 30.0
    ensures m.UfoUnit? || m.JetUnit? ==> h == 40.0
    ensures h > 0.0
  {
    match m
    case RocketUnit(_) => 30.0
    case MeteorUnit(_) => 30.0
    case UfoUnit(_) => 40.0
    case JetUnit(_) => 40.0
  }

  function Position(m: Movable): Point
  {
    match m
    case RocketUnit(r) => r.position
    case MeteorUnit(me) => me.position
    case UfoUnit(u) => u.position
    case JetUnit(j) => j.position
  }

  /** Meteors and UFOs are destroyed once their hit points reach zero;
      jets and rockets carry a flag. */
  predicate IsDestroyed(m: Movable)
  {
    match m
    case RocketUnit(r) => r.isDestroyed
    case MeteorUnit(me) => me.curHP <= 0
    case UfoUnit(u) => u.curHP <= 0
    case JetUnit(j) => j.isDestroyed
  }

  predicate IsEnemyRocket(m: Movable)
  {
    m.RocketUnit? && !m.rocket.isFriendly
  }

  // ----- construction -----

  /** A meteor starts full and falls from `coords` towards height `newTargetY`. */
  function NewMeteor(coords: Point, newTargetY: real, newMaxHP: int): (m: Meteor)
    ensures m.position == coords && m.start == coords
    ensures m.target == Point(coords.x, newTargetY)
    ensures m.curHP == m.maxHP == newMaxHP && m.alreadyHit == []
  {
    Meteor(coords, coords, Point(coords.x, newTargetY), newMaxHP, newMaxHP, [])
  }

  /** A UFO flies level from `coords` towards `newTargetX`, at the engine's
      speed, heading towards the target. */
  function NewUfo(coords: Point, newTargetX: real, newCurHP: int, newEngine: Engine): (u: Ufo)
    ensures u.position == coords && u.start == coords
    ensures u.target == Point(newTargetX, coords.y)
    ensures u.curHP == newCurHP && u.alreadyHit == [] && u.engine == newEngine
    ensures AbsR(u.dx) == AbsR(newEngine.speed)
    ensures newEngine.speed > 0.0 ==> (u.dx > 0.0 <==> coords.x < newTargetX)
  {
    var dx := if coords.x < newTargetX then newEngine.speed else -1.0 * newEngine.speed;
    Ufo(coords, coords, Point(newTargetX, coords.y), dx, newCurHP, [], newEngine)
  }

  /** A jet flies level at one and a half times its engine's speed and is
      loaded with `rocketDraw` rockets, a draw of `Next(2, 5)`. */
  function NewJet(coords: Point, newTargetX: real, newEngine: Engine, rocketDraw: int): (j: Jet)
    requires NextIn(rocketDraw, 2, 5)
    ensures j.position == coords && j.start == coords
    ensures j.target == Point(newTargetX, coords.y)
    ensures !j.isDestroyed && j.engine == newEngine
    ensures 2 <= j.rocketNum <= 4
    ensures AbsR(j.dx) == 1.5 * AbsR(newEngine.speed)
    ensures newEngine.speed > 0.0 ==> (j.dx > 0.0 <==> coords.x < newTargetX)
  {
    var dx := if coords.x < newTargetX then newEngine.speed * 1.5 else -1.5 * newEngine.speed;
    Jet(coords, coords, Point(newTargetX, coords.y), dx, false, rocketDraw, newEngine)
  }

  /** The flight numerics the rocket constructor derives: the velocity is the
      engine's speed and the per-move thrust a hundredth of its rate, each
      split between the axes in proportion to the signed distance to the
      target over the taxicab distance. When start and target coincide the
      `Rocket` constructor divides by zero; `undefinedFlight` stands for whatever
      non-numbers that produces. */
  function Aim(engine: Engine, start: Point, tx: real, ty: real, undefinedFlight: Ballistics): (b: Ballistics)
    ensures AbsR(tx - start.x) + AbsR(ty - start.y) == 0.0 ==> b == undefinedFlight
    ensures var sum := AbsR(tx - start.x) + AbsR(ty - start.y);
      sum != 0.0 ==>
        && b.velocity.x * sum == engine.speed * (tx - start.x)
        && b.velocity.y * sum == engine.speed * (ty - start.y)
        && b.thrust.x * sum == engine.speedRate / 100.0 * (tx - start.x)
        && b.thrust.y * sum == engine.speedRate / 100.0 * (ty - start.y)
  {
    var distanceX, distanceY := (start.x - tx) * -1.0, (start.y - ty) * -1.0;
    var sum := AbsR(distanceX) + AbsR(distanceY);
    if sum == 0.0 then undefinedFlight
    else
      var multiplier := 1.0 / sum;
      Ballistics(Point(engine.speed * multiplier * distanceX, engine.speed * multiplier * distanceY),
                 Point(engine.speedRate / 100.0 * multiplier * distanceX, engine.speedRate / 100.0 * multiplier * distanceY))
  }

  function NewRocket(newEngine: Engine, newWarhead: Warhead, coords: Point, newTargetX: real, newTargetY: real,
                     newIsFriendly: bool, undefinedFlight: Ballistics): (r: Rocket)
    ensures r.position == coords && r.start == coords && r.target == Point(newTargetX, newTargetY)
    ensures r.isFriendly == newIsFriendly && !r.isDestroyed
    ensures r.engine == newEngine && r.warhead == newWarhead
    ensures Ballistics(r.velocity, r.thrust) == Aim(newEngine, coords, newTargetX, newTargetY, undefinedFlight)
  {
    var flight := Aim(newEngine, coords, newTargetX, newTargetY, undefinedFlight);
    Rocket(coords, coords, Point(newTargetX, newTargetY), flight.velocity, flight.thrust,
           newIsFriendly, false, newEngine, newWarhead)
  }

  // ----- speed change of the horizontal flyers -----

  /** The acceleration step shared by UFOs and jets: a hundredth of the
      engine's rate, towards the target while left of it, away otherwise. */
  function Accelerate(x: real, targetX: real, dx: real, rate: real): (dx': real)
    ensures x < targetX ==> dx' - dx == rate / 100.0
    ensures x >= targetX ==> dx - dx' == rate / 100.0
  {
    if x < targetX then dx + rate / 100.0 else dx + (-1.0 * rate) / 100.0
  }

  function UfoChangeSpeed(u: Ufo): (u': Ufo)
    ensures u' == u.(dx := u'.dx)
    ensures u.position.x < u.target.x ==> u'.dx == u.dx + u.engine.speedRate / 100.0
    ensures u.position.x >= u.target.x ==> u'.dx == u.dx - u.engine.speedRate / 100.0
  {
    u.(dx := Accelerate(u.position.x, u.target.x, u.dx, u.engine.speedRate))
  }

  function JetChangeSpeed(j: Jet): (j': Jet)
    ensures j' == j.(dx := j'.dx)
    ensures j.position.x < j.target.x ==> j'.dx == j.dx + j.engine.speedRate / 100.0
    ensures j.position.x >= j.target.x ==> j'.dx == j.dx - j.engine.speedRate / 100.0
  {
    j.(dx := Accelerate(j.position.x, j.target.x, j.dx, j.engine.speedRate))
  }

  // ----- being caught in an explosion -----

  /** Meteor: the first contact with a given explosion costs its damage and
      is remembered; later contacts with it change nothing. The answer is
      whether the meteor is now destroyed. */
  function MeteorGetHit(m: Meteor, e: Explosion): (res: (bool, Meteor))
    ensures e.id in m.alreadyHit ==> res.1 == m
    ensures e.id !in m.alreadyHit ==>
      res.1 == m.(curHP := m.curHP - e.damage, alreadyHit := m.alreadyHit + [e.id])
    ensures res.0 <==> res.1.curHP <= 0
  {
    var m' := if e.id !in m.alreadyHit then m.(curHP := m.curHP - e.damage, alreadyHit := m.alreadyHit + [e.id]) else m;
    (m'.curHP <= 0, m')
  }

  /** UFO: the same once-per-explosion damage, but the answer is always
      "not destroyed"; removal happens when it next moves. */
  function UfoGetHit(u: Ufo, e: Explosion): (res: (bool, Ufo))
    ensures !res.0
    ensures e.id in u.alreadyHit ==> res.1 == u
    ensures e.id !in u.alreadyHit ==>
      res.1 == u.(curHP := u.curHP - e.damage, alreadyHit := u.alreadyHit + [e.id])
  {
    var u' := if e.id !in u.alreadyHit then u.(curHP := u.curHP - e.damage, alreadyHit := u.alreadyHit + [e.id]) else u;
    (false, u')
  }

  /** Jet: any explosion destroys it, yet the answer is "not destroyed". */
  function JetGetHit(j: Jet, e: Explosion): (res: (bool, Jet))
    ensures !res.0 && res.1 == j.(isDestroyed := true)
  {
    (false, j.(isDestroyed := true))
  }

  /** Rocket: an enemy rocket is destroyed and says so; a friendly rocket
      ignores explosions altogether. */
  function RocketGetHit(r: Rocket, e: Explosion): (res: (bool, Rocket))
    ensures !r.isFriendly ==> res.0 && res.1 == r.(isDestroyed := true)
    ensures r.isFriendly ==> !res.0 && res.1 == r
  {
    if !r.isFriendly then (true, r.(isDestroyed := true)) else (false, r)
  }

  /** Dispatch of `GetHit` over the four kinds. */
  function GetHit(m: Movable, e: Explosion): (res: (bool, Movable))
    ensures res.1.RocketUnit? == m.RocketUnit? && res.1.MeteorUnit? == m.MeteorUnit?
    ensures res.1.UfoUnit? == m.UfoUnit? && res.1.JetUnit? == m.JetUnit?
    ensures Position(res.1) == Position(m)
    ensures res.0 ==> IsDestroyed(res.1)
    ensures res.0 <==> (m.MeteorUnit? && IsDestroyed(res.1)) || IsEnemyRocket(m)
  {
    match m
    case RocketUnit(r) => var (d, r') := RocketGetHit(r, e); (d, RocketUnit(r'))
    case MeteorUnit(me) => var (d, me') := MeteorGetHit(me, e); (d, MeteorUnit(me'))
    case UfoUnit(u) => var (d, u') := UfoGetHit(u, e); (d, UfoUnit(u'))
    case JetUnit(j) => var (d, j') := JetGetHit(j, e); (d, JetUnit(j'))
  }

  /** The same explosion never hurts twice: a second contact is a no-op for
      every kind. */
  lemma GetHitIdempotent(m: Movable, e: Explosion)
    ensures GetHit(GetHit(m, e).1, e).1 == GetHit(m, e).1
    ensures GetHit(GetHit(m, e).1, e).0 == GetHit(m, e).0
  {
  }

  /** Meteors and UFOs lose exactly the damage of the distinct explosions
      that reached them: a run of contacts costs the sum of the damages of
      the explosions not seen before, each counted once. */
  function Absorb(hp: int, seen: seq<nat>, es: seq<Explosion>): (res: (int, seq<nat>))
    decreases |es|
  {
    if es == [] then (hp, seen)
    else if es[0].id in seen then Absorb(hp, seen, es[1..])
    else Absorb(hp - es[0].damage, seen + [es[0].id], es[1..])
  }

  function MeteorHitAll(m: Meteor, es: seq<Explosion>): Meteor
    decreases |es|
  {
    if es == [] then m else MeteorHitAll(MeteorGetHit(m, es[0]).1, es[1..])
  }

  /** Feeding a meteor any run of explosions is the same as absorbing them:
      only ids it has not seen before cost hit points. */
  lemma {:induction false} MeteorHitAllAbsorbs(m: Meteor, es: seq<Explosion>)
    ensures MeteorHitAll(m, es).curHP == Absorb(m.curHP, m.alreadyHit, es).0
    ensures MeteorHitAll(m, es).alreadyHit == Absorb(m.curHP, m.alreadyHit, es).1
    ensures MeteorHitAll(m, es).position == m.position
    decreases |es|
  {
    if es != [] {
      MeteorHitAllAbsorbs(MeteorGetHit(m, es[0]).1, es[1..]);
    }
  }

  /** Explosions with no negative damage never give a meteor hit points
      back. */
  lemma {:induction false} MeteorHitAllNoHeal(m: Meteor, es: seq<Explosion>)
    requires forall k :: 0 <= k < |es| ==> es[k].damage >= 0
    ensures MeteorHitAll(m, es).curHP <= m.curHP
    decreases |es|
  {
    if es != [] {
      MeteorHitAllNoHeal(MeteorGetHit(m, es[0]).1, es[1..]);
    }
  }

  /** Absorbing the same run twice in a row costs nothing the second time. */
  lemma {:induction false} AbsorbTwiceIsOnce(hp: int, seen: seq<nat>, es: seq<Explosion>)
    ensures var (hp1, seen1) := Absorb(hp, seen, es);
      Absorb(hp1, seen1, es) == (hp1, seen1)
    decreases |es|
  {
    AbsorbRecordsAll(hp, seen, es);
    var (hp1, seen1) := Absorb(hp, seen, es);
    AbsorbSeenAll(hp1, seen1, es);
  }

  /** After absorbing, every id of the run is remembered, and nothing already
      remembered is forgotten. */
  lemma {:induction false} AbsorbRecordsAll(hp: int, seen: seq<nat>, es: seq<Explosion>)
    ensures forall i :: 0 <= i < |es| ==> es[i].id in Absorb(hp, seen, es).1
    ensures forall x :: x in seen ==> x in Absorb(hp, seen, es).1
    decreases |es|
  {
    if es != [] {
      if es[0].id in seen {
        AbsorbRecordsAll(hp, seen, es[1..]);
      } else {
        AbsorbRecordsAll(hp - es[0].damage, seen + [es[0].id], es[1..]);
      }
      forall i | 0 <= i < |es|
        ensures es[i].id in Absorb(hp, seen, es).1
      {
        if i > 0 {
          assert es[i] == es[1..][i - 1];
        }
      }
    }
  }

  /** A run made only of remembered ids is absorbed without any change. */
  lemma {:induction false} AbsorbSeenAll(hp: int, seen: seq<nat>, es: seq<Explosion>)
    requires forall i :: 0 <= i < |es| ==> es[i].id in seen
    ensures Absorb(hp, seen, es) == (hp, seen)
    decreases |es|
  {
    if es != [] {
      assert es[0].id in seen;
      AbsorbSeenAll(hp, seen, es[1..]);
    }
  }
}

=== FILE: worlds.dfy ===
/** The world: everything the view model exposes (counters, the building,
    explosion and movable lists, the catalogs and the player's selection)
    together with what the game manager keeps for itself (the canvas size and
    the two queues of objects waiting to enter the live lists). */
module Worlds {
  import opened Common
  import opened Catalog
  import opened Buildings
  import opened Explosions
  import opened Units

  datatype World = World(
    cw: real, ch: real,
    score: int, remainingRockets: int, nuclearTimer: int, shieldResearch: int,
    buildings: seq<Building>, explosions: seq<Explosion>, movables: seq<Movable>,
    engines: seq<Engine>, warheads: seq<Warhead>,
    selectedEngine: Option<Engine>, selectedWarhead: Option<Warhead>,
    rocketQueue: seq<Rocket>, explosionQueue: seq<Explosion>,
    nextId: nat)

  /** A new view model on a `cw` by `ch` canvas: no score, thirty rockets, the
      nuclear launcher ready, shield level one, every list empty and nothing
      selected. */
  function InitialWorld(cw: real, ch: real): (w: World)
    ensures w.cw == cw && w.ch == ch
    ensures w.score == 0 && w.remainingRockets == 30 && w.nuclearTimer == 0 && w.shieldResearch == 1
    ensures w.buildings == [] && w.explosions == [] && w.movables == []
    ensures w.engines == [] && w.warheads == []
    ensures w.selectedEngine == None && w.selectedWarhead == None
    ensures w.rocketQueue == [] && w.explosionQueue == []
  {
    World(cw, ch, 0, 30, 0, 1, [], [], [], [], [], None, None, [], [], 0)
  }

  // ----- the counter setters: any value is stored, nothing is clamped -----

  function SetScore(w: World, v: int): (w': World)
    ensures w'.score == v && w' == w.(score := w'.score)
  {
    w.(score := v)
  }

  function SetRemainingRockets(w: World, v: int): (w': World)
    ensures w'.remainingRockets == v && w' == w.(remainingRockets := w'.remainingRockets)
  {
    w.(remainingRockets := v)
  }

  function SetNuclearTimer(w: World, v: int): (w': World)
    ensures w'.nuclearTimer == v && w' == w.(nuclearTimer := w'.nuclearTimer)
  {
    w.(nuclearTimer := v)
  }

  // ----- status indicators -----

  /** Colour of the nuclear countdown: black until the nuclear warhead is
      researched (a fourth warhead), then green when ready and red while
      cooling down. */
  function NuclearColor(w: World): (c: string)
    ensures c == "Black" <==> |w.warheads| <= 3
    ensures c == "Green" <==> |w.warheads| > 3 && w.nuclearTimer == 0
    ensures c == "Red" <==> |w.warheads| > 3 && w.nuclearTimer != 0
  {
    if |w.warheads| <= 3 then "Black"
    else if w.nuclearTimer == 0 then "Green"
    else "Red"
  }

  /** A research indicator is red while the tier is still to be bought. */
  function Indicator(pending: bool): string
  {
    if pending then "Red" else "Green"
  }

  function MediumEngineResearch(w: World): (c: string)
    ensures c == "Red" <==> |w.engines| == 1
    ensures c == "Green" <==> |w.engines| != 1
  {
    Indicator(|w.engines| == 1)
  }

  function LargeEngineResearch(w: World): (c: string)
    ensures c == "Red" <==> |w.engines| <= 2
    ensures c == "Green" <==> |w.engines| > 2
  {
    Indicator(|w.engines| <= 2)
  }

  function MediumWarheadResearch(w: World): (c: string)
    ensures c == "Red" <==> |w.warheads| <= 1
    ensures c == "Green" <==> |w.warheads| > 1
  {
    Indicator(|w.warheads| <= 1)
  }

  function LargeWarheadResearch(w: World): (c: string)
    ensures c == "Red" <==> |w.warheads| <= 2
    ensures c == "Green" <==> |w.warheads| > 2
  {
    Indicator(|w.warheads| <= 2)
  }

  function NuclearWarheadResearch(w: World): (c: string)
    ensures c == "Red" <==> |w.warheads| <= 3
    ensures c == "Green" <==> |w.warheads| > 3
  {
    Indicator(|w.warheads| <= 3)
  }

  // ----- how the world may change while units move -----

  /** `b` is `a` followed by more elements. */
  predicate Extends<T(==)>(a: seq<T>, b: seq<T>)
  {
    |a| <= |b| && b[..|a|] == a
  }

  /** Same buildings in the same places: only hit points and shields differ. */
  predicate SameFootprint(a: seq<Building>, b: seq<Building>)
  {
    |a| == |b| &&
    forall i :: 0 <= i < |a| ==> b[i].position == a[i].position && b[i].maxHP == a[i].maxHP
  }

  /** Same explosions, possibly wider: reading a radius only ever grows it. */
  predicate SameBlasts(a: seq<Explosion>, b: seq<Explosion>)
  {
    |a| == |b| &&
    forall i :: 0 <= i < |a| ==> b[i] == a[i].(radius := b[i].radius) && a[i].radius <= b[i].radius
  }

  /** Explosion ids of `s` are all in `[lo, hi)` and pairwise different. */
  predicate FreshIds(s: seq<Explosion>, lo: nat, hi: nat)
  {
    (forall i :: 0 <= i < |s| ==> lo <= s[i].id < hi) &&
    (forall i, j :: 0 <= i < j < |s| ==> s[i].id != s[j].id)
  }

  /** The changes a unit's move, explosion or scoring can make: hit points,
      shields, counters, the two queues growing at their ends (new explosions
      taking fresh ids) and radii growing. Nothing else moves. */
  predicate Evolves(w: World, w': World)
  {
    && w'.cw == w.cw && w'.ch == w.ch
    && w'.nuclearTimer == w.nuclearTimer && w'.shieldResearch == w.shieldResearch
    && w'.movables == w.movables && w'.engines == w.engines && w'.warheads == w.warheads
    && w'.selectedEngine == w.selectedEngine && w'.selectedWarhead == w.selectedWarhead
    && SameFootprint(w.buildings, w'.buildings)
    && SameBlasts(w.explosions, w'.explosions)
    && Extends(w.rocketQueue, w'.rocketQueue)
    && Extends(w.explosionQueue, w'.explosionQueue)
    && w.nextId <= w'.nextId
    && FreshIds(w'.explosionQueue[|w.explosionQueue|..], w.nextId, w'.nextId)
  }

  lemma EvolvesRefl(w: World)
    ensures Evolves(w, w)
  {
    assert w.explosionQueue[|w.explosionQueue|..] == [];
  }

  lemma EvolvesTrans(a: World, b: World, c: World)
    requires Evolves(a, b) && Evolves(b, c)
    ensures Evolves(a, c)
  {
    var qa, qb, qc := a.explosionQueue, b.explosionQueue, c.explosionQueue;
    assert qc[..|qb|] == qb;
    assert qc[..|qa|] == qb[..|qa|];
    var nb, nc := qc[|qa|..|qb|], qc[|qb|..];
    assert nb == qb[|qa|..];
    assert qc[|qa|..] == nb + nc;
    assert c.rocketQueue[..|a.rocketQueue|] == b.rocketQueue[..|a.rocketQueue|];
  }

  /** Every explosion, live or queued, carries an id below `nextId`, and no two
      share one; this is what makes an id a faithful stand-in for object
      identity. */
  predicate IdsFresh(w: World)
  {
    FreshIds(w.explosions + w.explosionQueue, 0, w.nextId)
  }

  /** Any evolution keeps ids fresh. */
  lemma EvolvesKeepsIdsFresh(w: World, w': World)
    requires Evolves(w, w')
    ensures IdsFresh(w) ==> IdsFresh(w')
  {
    if IdsFresh(w) {
      EvolvesKeepsIdsFreshFrom(w, w');
    }
  }

  lemma EvolvesKeepsIdsFreshFrom(w: World, w': World)
    requires IdsFresh(w) && Evolves(w, w')
    ensures IdsFresh(w')
  {
    var all, all' := w.explosions + w.explosionQueue, w'.explosions + w'.explosionQueue;
    var n := |w.explosions| + |w.explosionQueue|;
    assert |all'| >= n;
    forall i | 0 <= i < n
      ensures all'[i].id == all[i].id
    {
      if i >= |w.explosions| {
        assert all'[i] == w'.explosionQueue[i - |w.explosions|];
        assert w'.explosionQueue[..|w.explosionQueue|] == w.explosionQueue;
      }
    }
    var added := w'.explosionQueue[|w.explosionQueue|..];
    forall i | n <= i < |all'|
      ensures all'[i] == added[i - n]
    {
    }
    assert forall i :: 0 <= i < |all'| ==> all'[i].id < w'.nextId;
    forall i, j | 0 <= i < j < |all'|
      ensures all'[i].id != all'[j].id
    {
      if j < n {
        assert all[i].id != all[j].id;
      } else if i < n {
        assert all[i].id < w.nextId <= added[j - n].id;
      } else {
        assert added[i - n].id != added[j - n].id;
      }
    }
  }
}
